=== FILE: README.md ===
# Cable physics: the connector state machine, the cable builder and the pick-up/drop integration

A Dafny model of the core of a Unity project that simulates a breakable
physical cable. The cable is a chain of spring-jointed point bodies between
two plugs ("connectors"). A connector plugs into a compatible connector
elsewhere in the scene. A player can pick a cable end up, drag it, and drop
it onto another connector.

The repository has two copies of most scripts. The `HPhysic` namespace is
under `Assets/` and has an `IObjectHolder`. The root `Scripts/` copy plays
sounds and drags the neighbouring cable point while an end is held. Both
copies are modelled, one module each:

| module | file | models |
|---|---|---|
| `Base` | base.dfy | nullable references, ids, polarity and colour, the link count |
| `Connector` | connector.dfy | `Assets/PhysicCalbes/Scripts/Connector.cs` |
| `ScriptsConnector` | scripts_connector.dfy | `Scripts/Connector.cs`, with the audio and particle cues it issues |
| `Naming` | names.dfy | the generated child names of `PhysicCable` |
| `CableLayout` | cable_layout.dfy | the "Reset points" button (`UpdatePoints`) and `SetSpirng` |
| `CableTopology` | cable_topology.dfy | the "Add point" and "Remove point" buttons, and the lists `Start` builds |
| `CableBreak` | cable_break.dfy | the length measurement and break rule of `PhysicCable.Update` |
| `Interactable` | interactable.dfy | `Assets/Interactions/Interactable.cs` |
| `Layers` | layers.dfy | the layer save/restore both `Liftable` copies share |
| `Liftable` | liftable.dfy | `Assets/Interactions/Liftable.cs` |
| `ScriptsLiftable` | scripts_liftable.dfy | `Scripts/Liftable.cs` |
| `CableEnd` | cable_end.dfy | `Assets/PhysicCalbes/Scripts/PhysicCableCon.cs` |
| `ScriptsCableEnd` | scripts_cable_end.dfy | `Scripts/PhysicCableCon.cs`, including the follow coroutine |
| `PlayerInteractions` | player.dfy | the object holder of `PlayerInteractions.cs` |

Every connector of a scene lives in one `Store`, which has one column per
piece of connector state, indexed by connector id:

- the settings;
- `ConnectedTo`;
- the body bound by the `FixedJoint` the joint field references;
- in the HPhysic copy, the bodies of earlier joints that are still on the
  object but that the field no longer references;
- the saved and the current `isKinematic` flag;
- the collider switch and, in the root copy, the highlight switch;
- whether the mismatch-spark coroutine is alive.

`Disconnect` is a recursive function. Every activation that goes past the
guard clears one link before it makes the reciprocal call, so the number of
links decreases. That is how the source avoids endless recursion, and it is
the termination measure here.

Definitions the contracts are stated with, and the code each one models:

| definition | source | models |
|---|---|---|
| `Connector.CanConnect` | Assets/PhysicCalbes/Scripts/Connector.cs:176-180 | the compatibility gate |
| `ScriptsConnector.CanConnect` | Scripts/Connector.cs:191-195 | the same gate in the root copy |
| `ScriptsConnector.SparkCues` | Scripts/Connector.cs:155-159 | one round of the spark loop: the particles play, then the sparks sound when one is assigned |
| `Naming.ConnectorName`, `Naming.PointName` | Assets/PhysicCalbes/Scripts/PhysicCable.cs:257-258 | the generated child names |
| `CableLayout.At` | Assets/PhysicCalbes/Scripts/PhysicCable.cs:57-63, 85 | the position `k` spacings along the forward axis |
| `CableLayout.Chain` | Assets/PhysicCalbes/Scripts/PhysicCable.cs:57-79 | the springs a laid-out cable has |
| `CableTopology.MidPoints`, `CableTopology.MidConns` | Assets/PhysicCalbes/Scripts/PhysicCable.cs:183-196 | the loop of `Start` over points `1 .. n-1` |
| `CableTopology.StartPoints`, `CableTopology.StartConnectors` | Assets/PhysicCalbes/Scripts/PhysicCable.cs:175-204 | the two lists `Start` builds |
| `CableBreak.BrakeLength` | Assets/PhysicCalbes/Scripts/PhysicCable.cs:173 | the break length formula |
| `CableBreak.Sum` | Assets/PhysicCalbes/Scripts/PhysicCable.cs:207-233 | the length the measuring loop adds up |
| `PlayerInteractions.InputRun` | Assets/SamplePlayerController/Scripts/PlayerInteractions.cs:57-68 | the input step over successive frames |

Behaviour of the code that the lemmas pin down:

- **Stealing a linked connector.** Plugging a free connector C into A,
  which is linked to B, leaves B pointing at A. `Connect` only disconnects
  its own side, and only when it is already connected, so the store stops
  being symmetric (`Connector.StealLeavesDangling`,
  `ScriptsConnector.StealLeavesDangling`).
- **Reconnecting in the HPhysic copy.** An already connected connector calls
  `Disconnect(secondConnector)` first. The `onlyThis` guard turns that into
  a no-op unless the argument is the current partner. So the old partner
  keeps a dangling link (`Connector.ReconnectKeepsOldPartner`). The joint
  to the old partner is not destroyed either: `AddComponent` only replaces
  the field's reference, and every later `Disconnect` destroys only the
  joint the field references. The connector stays welded to its old
  partner (`Connector.ReconnectLeaksJoint`).
- **Reconnecting in the root copy.** The same call, `Disconnect(secondConnector)`,
  binds the `Connector` argument to `bool playSound`: Unity objects convert
  implicitly to `true`. `onlyThis` stays null, so the old partner is fully
  disconnected, with sound (`ScriptsConnector.ConnectReplacesPartner`).
- **Joint ownership.** When both sides of a link authored in the scene run
  `Start`, both sides own a joint (`Connector.StartBothSidesOwnTwoJoints`).
- **First grace period.** The grace timer starts at its field initialiser,
  one second, not at `minBrakeTime`.
- **Break length.** The break length is `space * numberOfPoints *
  brakeLengthMultiplier + 2`. A cable of `n` points has `n + 1` segments, so
  a resting cable is within the break length exactly when
  `space * (n + 1) <= space * n * multiplier + 2`
  (`CableBreak.RestingWithinBreakLength`). With multiplier 1 that
  means exactly when `space` is at most 2, whatever `n`
  (`CableBreak.UnitMultiplierRestingBound`). A larger multiplier adds slack
  per point: spacing 2 or less never trips a multiplier of at least 1
  (`CableBreak.RelaxedIsNotStretched`), while spacing 3 trips a one-point
  cable at multiplier 1 (`CableBreak.WideSpacingRestsStretched`) but not a
  three-point cable at multiplier 2
  (`CableBreak.LargerMultiplierToleratesWideSpacing`).

Unity's `StartCoroutine` runs a coroutine synchronously up to its first
`yield`. So the first round of the spark loop happens inside `Connect`. In
the root copy's `PickUp`, the follow coroutine's neighbour lookup, the
neighbour's switch to kinematic, the removal of its spring to the end and
the first step of the follow loop all happen inside `PickUp`
(`ScriptsCableEnd.PickUp`). Positions are reals along one axis.
Floating-point rounding is not modelled.

## Model

| member | source | states |
|---|---|---|
| Base.LinkCount | Assets/PhysicCalbes/Scripts/Connector.cs:111-116 | the number of set links is at most the number of connectors; it is the measure under which the reciprocal `Disconnect` calls stop |
| Connector.Hide | Assets/PhysicCalbes/Scripts/Connector.cs:129-136 | only the collider of the given connector changes; it is on exactly when the connector is free, for a connector that hides when connected; nothing changes for any other connector |
| Connector.SetAsConnectedTo | Assets/PhysicCalbes/Scripts/Connector.cs:65-70 | the passive side records its partner, saves the partner's kinematic flag, and then meets the hide policy as a connected connector |
| Connector.Release | Assets/PhysicCalbes/Scripts/Connector.cs:109-115 | the joint and the link of this side are cleared; the partner's kinematic flag is restored from the saved value only under `makeConnectionKinematic`; one link fewer is set |
| Connector.Disconnect | Assets/PhysicCalbes/Scripts/Connector.cs:104-127 | the guard makes the call a one-activation no-op when the connector is free or `onlyThis` names someone else; the settings and the joints the field no longer references never change, and the store stays well formed |
| Connector.Attach | Assets/PhysicCalbes/Scripts/Connector.cs:85-92 | both sides now point at each other, only the initiator gains a joint, a joint its field still referenced stays on the object unreferenced, each side saved the other's kinematic flag, the partner is forced kinematic only under `makeConnectionKinematic`, and the partner meets the hide policy |
| Connector.Connect | Assets/PhysicCalbes/Scripts/Connector.cs:71-103 | a null argument changes nothing; otherwise the initiator and the argument point at each other and the initiator's field references the new joint; the old joint is destroyed when the argument was the current partner, and otherwise the joint the field referenced stays on the object unreferenced |
| Connector.Start | Assets/PhysicCalbes/Scripts/Connector.cs:51-61 | an authored link is kept by the re-connect, and a connector without one is untouched |
| Connector.OnDisable | Assets/PhysicCalbes/Scripts/Connector.cs:63 | a disabled connector is free afterwards |
| Connector.SparkTick | Assets/PhysicCalbes/Scripts/Connector.cs:140-149 | a later wake-up of the spark loop plays exactly when the loop is alive, sparks are assigned and the link is still wrong; otherwise the loop ends and nothing else changes |
| Connector.CanConnectIrreflexive | Assets/PhysicCalbes/Scripts/Connector.cs:176-180 | no connector can connect to itself |
| Connector.CanConnectGates | Assets/PhysicCalbes/Scripts/Connector.cs:176-180 | equal polarity or a connected side refuses; otherwise the link is allowed exactly when a side allows a mismatch or the colours agree |
| Connector.CanConnectSymmetric | Assets/PhysicCalbes/Scripts/Connector.cs:176-180 | the gate answers the same from either side |
| Connector.DisconnectOnlyClears | Assets/PhysicCalbes/Scripts/Connector.cs:104-127 | across all reciprocal calls no connector gains or changes a link or a joint; each is kept or cleared |
| Connector.DisconnectClearsSelf | Assets/PhysicCalbes/Scripts/Connector.cs:106-113 | a disconnect the guard lets through leaves the connector free, and without the joint its field referenced when it was connected |
| Connector.DisconnectHides | Assets/PhysicCalbes/Scripts/Connector.cs:126 | every connector whose link was cleared meets the hide policy as a free connector; every other one keeps its link and its collider |
| Connector.DisconnectKeepsHideConsistent | Assets/PhysicCalbes/Scripts/Connector.cs:104-136 | if every connector met the hide policy before a disconnect, every connector meets it afterwards |
| Connector.DisconnectPairSteps | Assets/PhysicCalbes/Scripts/Connector.cs:104-127 | the disconnect of one side of a pair releases both sides and applies the hide policy to both, in three activations |
| Connector.DisconnectPair | Assets/PhysicCalbes/Scripts/Connector.cs:104-127 | disconnecting either side of a pair frees both sides, destroys both joints, restores each forced kinematic flag, and leaves the other connectors' colliders alone, in exactly three activations |
| Connector.ClearPairKeepsSymmetry | Assets/PhysicCalbes/Scripts/Connector.cs:111-116 | clearing both sides of a pair keeps every link two-sided |
| Connector.DisconnectPreservesSymmetry | Assets/PhysicCalbes/Scripts/Connector.cs:104-127 | a store where every link is two-sided stays so under every disconnect |
| Connector.DisconnectIdempotent | Assets/PhysicCalbes/Scripts/Connector.cs:106-107 | a second disconnect with the same argument changes nothing |
| Connector.DisconnectCallsAtMostThree | Assets/PhysicCalbes/Scripts/Connector.cs:111-116 | no chain of reciprocal calls exceeds three activations, whatever the store |
| Connector.ConnectFree | Assets/PhysicCalbes/Scripts/Connector.cs:71-103 | connecting two free connectors links them both ways, gives only the initiator a joint, saves and forces the kinematic flags, starts sparks exactly when the colours differ and sparks are assigned, and keeps links two-sided |
| Connector.ConnectPreservesSymmetry | Assets/PhysicCalbes/Scripts/Connector.cs:71-103 | a connect that passes the gate keeps every link two-sided |
| Connector.ReconnectSamePartner | Assets/PhysicCalbes/Scripts/Connector.cs:79-80 | reconnecting to the current partner goes through the guard and leaves the same two-sided link |
| Connector.ReconnectKeepsOldPartner | Assets/PhysicCalbes/Scripts/Connector.cs:79-80 | reconnecting to someone else leaves the old partner pointing at the initiator, so links are no longer two-sided |
| Connector.ReconnectLeaksJoint | Assets/PhysicCalbes/Scripts/Connector.cs:79-109 | reconnecting a connector that owns the joint to its partner to someone else keeps the old joint on the object unreferenced, and a later disconnect leaves the connector free while still welded to the old partner |
| Connector.StealLeavesDangling | Assets/PhysicCalbes/Scripts/Connector.cs:71-92 | plugging a free connector into one side of a pair leaves the other side pointing at it, so links are no longer two-sided |
| Connector.UnlinkFreshPair | Assets/PhysicCalbes/Scripts/Connector.cs:109-115 | making a pair and releasing it from either side gives back the original links and kinematic flags, and no joint for either side |
| Connector.UnlinkAfterConnect | Assets/PhysicCalbes/Scripts/Connector.cs:104-127 | a disconnect from either side of a fresh pair gives back the original links and kinematic flags |
| Connector.ConnectDisconnectRestoresKinematic | Assets/PhysicCalbes/Scripts/Connector.cs:85-116 | connect then disconnect from either side restores both links and both kinematic flags, and leaves neither side with a joint |
| Connector.ConnectKeepsHideConsistent | Assets/PhysicCalbes/Scripts/Connector.cs:71-103 | if every connector met the hide policy before a connect, every connector meets it afterwards |
| Connector.AttachKeepsHideElsewhere | Assets/PhysicCalbes/Scripts/Connector.cs:85-92 | in the middle of a connect, every connector except the initiator meets the hide policy |
| Connector.StartKeepsAuthoredLink | Assets/PhysicCalbes/Scripts/Connector.cs:51-61 | `Start` of either side of an authored two-sided link keeps the link, keeps it two-sided, and gives that side a joint |
| Connector.StartBothSidesOwnTwoJoints | Assets/PhysicCalbes/Scripts/Connector.cs:51-61 | when both sides of an authored link run `Start`, both sides own a joint |
| Connector.MismatchLoopStopsAfterDisconnect | Assets/PhysicCalbes/Scripts/Connector.cs:142-148 | after a disconnect, the next wake-up of the spark loop plays nothing and ends the loop |
| ScriptsConnector.Hide | Scripts/Connector.cs:140-149 | only the collider and highlight of the given connector change; both are on exactly when it is free, for a connector that hides when connected |
| ScriptsConnector.SetAsConnectedTo | Scripts/Connector.cs:68-73 | the passive side records its partner, saves the partner's kinematic flag, and meets the hide policy as a connected connector |
| ScriptsConnector.Release | Scripts/Connector.cs:116-122 | the joint and link of this side are cleared, the partner's kinematic flag is restored only under `makeConnectionKinematic`, and one link fewer is set |
| ScriptsConnector.ConnectCue | Scripts/Connector.cs:126-127 | the connect sound plays exactly when it is asked for and assigned |
| ScriptsConnector.Disconnect | Scripts/Connector.cs:111-138 | the guard makes the call a silent one-activation no-op when the connector is free or `onlyThis` names someone else; the settings never change |
| ScriptsConnector.Attach | Scripts/Connector.cs:88-95 | both sides point at each other, only the initiator gains a joint, the kinematic flags are saved and forced under `makeConnectionKinematic`, and the partner meets the hide policy |
| ScriptsConnector.Connect | Scripts/Connector.cs:74-110 | a null argument changes nothing and is silent; otherwise the initiator and the argument point at each other and the initiator owns the joint |
| ScriptsConnector.Start | Scripts/Connector.cs:54-64 | an authored link is kept by the re-connect, and a connector without one is untouched |
| ScriptsConnector.OnDisable | Scripts/Connector.cs:66 | a disabled connector is free afterwards |
| ScriptsConnector.SparkTick | Scripts/Connector.cs:153-164 | a later wake-up plays the sparks exactly when the loop is alive, sparks are assigned and the link is still wrong; otherwise the loop ends |
| ScriptsConnector.MismatchLoopStopsAfterDisconnect | Scripts/Connector.cs:153-164 | after `OnDisable`, the next wake-up of the spark loop issues no cue and ends the loop |
| ScriptsConnector.CanConnectGates | Scripts/Connector.cs:191-195 | a connector never connects to itself; equal polarity or a connected side refuses; otherwise the link is allowed exactly when a side allows a mismatch or the colours agree; the gate answers the same from either side |
| ScriptsConnector.DisconnectOnlyClears | Scripts/Connector.cs:111-138 | across all reciprocal calls no connector gains or changes a link |
| ScriptsConnector.DisconnectClearsSelf | Scripts/Connector.cs:113-120 | a disconnect the guard lets through leaves the connector free |
| ScriptsConnector.DisconnectHides | Scripts/Connector.cs:137 | every connector whose link was cleared meets the hide policy as a free connector; every other one keeps its link, collider and highlight |
| ScriptsConnector.DisconnectKeepsHideConsistent | Scripts/Connector.cs:111-149 | if every connector met the hide policy before a disconnect, every connector meets it afterwards |
| ScriptsConnector.DisconnectCallsBounded | Scripts/Connector.cs:119-123 | a disconnect makes at most one more activation than there are links |
| ScriptsConnector.DisconnectPairSteps | Scripts/Connector.cs:111-138 | the disconnect of one side of a pair releases both sides and hides both in three activations; the partner's connect sound comes first, then this side's |
| ScriptsConnector.DisconnectPair | Scripts/Connector.cs:111-138 | disconnecting either side of a pair frees both sides, destroys both joints and restores each forced kinematic flag, in exactly three activations |
| ScriptsConnector.ReleasePair | Scripts/Connector.cs:116-122 | releasing both sides of a pair clears both links and joints and restores each forced kinematic flag |
| ScriptsConnector.DisconnectPairCues | Scripts/Connector.cs:123-127 | the partner always plays its connect sound, because its reciprocal call binds `this` to `playSound`; this side plays its own only when asked |
| ScriptsConnector.ClearPairKeepsSymmetry | Scripts/Connector.cs:118-123 | clearing both sides of a pair keeps every link two-sided |
| ScriptsConnector.DisconnectPreservesSymmetry | Scripts/Connector.cs:111-138 | every disconnect keeps links two-sided, and one that unlinks a pair takes three activations |
| ScriptsConnector.OnDisablePartnerStillSounds | Scripts/Connector.cs:66 | disabling one side of a pair is silent for that side, but the partner plays its connect sound |
| ScriptsConnector.ConnectFree | Scripts/Connector.cs:74-110 | connecting two free connectors links them both ways, gives only the initiator a joint, saves and forces the kinematic flags, keeps links two-sided, and plays the connect sound, then the first spark round exactly when the colours differ and sparks are assigned |
| ScriptsConnector.ConnectPreservesSymmetry | Scripts/Connector.cs:74-110 | a connect that passes the gate keeps every link two-sided |
| ScriptsConnector.ConnectAfterDisconnect | Scripts/Connector.cs:82-83 | a connect from a connected connector is a full sounding disconnect followed by a connect from the freed connector, with the cues in that order |
| ScriptsConnector.ConnectReplacesPartner | Scripts/Connector.cs:82-95 | a connected connector plugged into a free one frees its old partner, whoever that is, keeps links two-sided, and both old sides play their connect sound |
| ScriptsConnector.StealLeavesDangling | Scripts/Connector.cs:74-95 | plugging a free connector into one side of a pair links the two, but leaves the other side pointing at the stolen connector, so links are no longer two-sided |
| ScriptsConnector.ReplaceColumns | Scripts/Connector.cs:82-95 | the link column after the replacement is the old one with the old partner cleared and the new pair linked |
| ScriptsConnector.ConnectKeepsHideConsistent | Scripts/Connector.cs:74-110 | if every connector met the hide policy before a connect, every connector meets it afterwards |
| ScriptsConnector.AttachKeepsHideElsewhere | Scripts/Connector.cs:88-95 | in the middle of a connect, every connector except the initiator meets the hide policy |
| ScriptsConnector.StartIsSilent | Scripts/Connector.cs:62 | the re-connect of `Start` never plays a connect sound |
| ScriptsConnector.StartKeepsAuthoredLink | Scripts/Connector.cs:54-64 | `Start` of either side of an authored two-sided link keeps the link, keeps it two-sided, and gives that side a joint |
| Naming.DigitChar | Assets/PhysicCalbes/Scripts/PhysicCable.cs:257-258 | a digit below ten is written as a decimal digit character |
| Naming.NatToString | Assets/PhysicCalbes/Scripts/PhysicCable.cs:257-258 | an index is written as at least one decimal digit, with more than one exactly from ten up, ending in its last digit |
| Naming.NatToStringInjective | Assets/PhysicCalbes/Scripts/PhysicCable.cs:257-258 | different indices are written differently |
| Naming.FramedInjective | Assets/PhysicCalbes/Scripts/PhysicCable.cs:257-258 | a name made from a prefix, an index text and a suffix determines the index text |
| Naming.NamesDistinct | Assets/PhysicCalbes/Scripts/PhysicCable.cs:257-258 | point names and connector names are distinct per index and from each other, and each starts with the clone prefix that the clean-up searches for |
| CableLayout.Keep | Assets/PhysicCalbes/Scripts/PhysicCable.cs:45-52 | the surviving children are never more than the children there were |
| CableLayout.KeepMembers | Assets/PhysicCalbes/Scripts/PhysicCable.cs:45-52 | a child survives the clean-up exactly when it was there and its name does not start with `Part` |
| CableLayout.DeleteOldParts | Assets/PhysicCalbes/Scripts/PhysicCable.cs:45-52 | the delete loop, which steps back after each deletion, keeps exactly the children whose name does not start with `Part`, in their order, and no child whose name starts with `Part` survives (an authored child named, say, `Particles` is deleted too) |
| CableLayout.DropStep | Assets/PhysicCalbes/Scripts/PhysicCable.cs:46-47 | stepping over a kept child moves it from the unvisited part to the visited part |
| CableLayout.AtNext | Assets/PhysicCalbes/Scripts/PhysicCable.cs:86 | consecutive positions along the forward axis are one `space` apart |
| CableLayout.LayOut | Assets/PhysicCalbes/Scripts/PhysicCable.cs:55-83 | point `i` sits `i + 1` spaces from the start body, the end body one space after the last point, and each of the `n + 1` connector segments midway between the two bodies it joins |
| CableLayout.SetSpring | Assets/PhysicCalbes/Scripts/PhysicCable.cs:263-273 | a configured spring pulls on the given body with the cable's spring force and has both its minimum and maximum distance equal to the spacing |
| CableLayout.LaySprings | Assets/PhysicCalbes/Scripts/PhysicCable.cs:57-79 | each point pulls on the body before it and the last point (or the start body) pulls on the end; as a set this is the spring chain |
| CableLayout.ChainOfList | Assets/PhysicCalbes/Scripts/PhysicCable.cs:57-79 | the springs configured in order form exactly the spring chain |
| CableLayout.LayoutIsRelaxed | Assets/PhysicCalbes/Scripts/PhysicCable.cs:62-79 | in the fresh layout every spring joins two bodies exactly its rest distance apart |
| CableTopology.Range | Assets/PhysicCalbes/Scripts/PhysicCable.cs:183 | the index range holds exactly the indices from its lower bound up to below its upper bound |
| CableTopology.AddPoint | Assets/PhysicCalbes/Scripts/PhysicCable.cs:90-122 | "Add point" is refused when the last point is missing; otherwise the count grows by one, with one new point and one new connector child |
| CableTopology.RemovePoint | Assets/PhysicCalbes/Scripts/PhysicCable.cs:125-165 | "Remove point" is refused exactly when there are fewer than two points or the last point, the last connector or the second-to-last point is missing; otherwise the count shrinks by one and the last point and last connector are gone |
| CableTopology.Rebuild | Assets/PhysicCalbes/Scripts/PhysicCable.cs:36-43 | "Reset points" does nothing when an authored object is missing and never changes the point count |
| CableTopology.CountStaysPositive | Assets/PhysicCalbes/Scripts/PhysicCable.cs:127-131 | the point count never drops below one |
| CableTopology.CompleteUnique | Assets/PhysicCalbes/Scripts/PhysicCable.cs:57-83 | a fully laid-out cable is determined by its point count |
| CableTopology.RebuildCompletes | Assets/PhysicCalbes/Scripts/PhysicCable.cs:36-87 | "Reset points" leaves a fully laid-out cable for the current count |
| CableTopology.ChainGrow | Assets/PhysicCalbes/Scripts/PhysicCable.cs:99-112 | replacing the last point's spring to the end by the new point's two springs gives the chain one point longer |
| CableTopology.ChainShrink | Assets/PhysicCalbes/Scripts/PhysicCable.cs:155-161 | dropping the last point's springs and letting the point before it pull on the end gives the chain one point shorter |
| CableTopology.AddKeepsComplete | Assets/PhysicCalbes/Scripts/PhysicCable.cs:90-122 | "Add point" on a fully laid-out cable gives a fully laid-out cable one point longer |
| CableTopology.RemoveKeepsComplete | Assets/PhysicCalbes/Scripts/PhysicCable.cs:125-165 | "Remove point" on a fully laid-out cable of two or more points gives a fully laid-out cable one point shorter |
| CableTopology.RangeShrink | Assets/PhysicCalbes/Scripts/PhysicCable.cs:161-164 | removing the top index from a range gives the range one shorter |
| CableTopology.AddRemoveRoundTrip | Assets/PhysicCalbes/Scripts/PhysicCable.cs:90-165 | on a fully laid-out cable "Add point" then "Remove point" restores it, and so does the reverse order from two points up |
| CableTopology.FindPoint | Assets/PhysicCalbes/Scripts/PhysicCable.cs:260 | a point lookup finds something exactly when that point exists, index 0 being the authored point |
| CableTopology.FindConn | Assets/PhysicCalbes/Scripts/PhysicCable.cs:259 | a connector lookup finds something exactly when that connector exists, index 0 being the authored connector |
| CableTopology.MidPointsFound | Assets/PhysicCalbes/Scripts/PhysicCable.cs:191-195 | with the point itself checked before it is added, the middle of the point list holds no null |
| CableTopology.StartPointsNeverNull | Assets/PhysicCalbes/Scripts/PhysicCable.cs:175-204 | with the corrected guard the point list `Start` builds holds no null |
| CableTopology.StartPointsAsWrittenStoresNull | Assets/PhysicCalbes/Scripts/PhysicCable.cs:191-195 | with the guard as written, a cable whose connector 1 exists but whose point 1 is missing gets a null point; the corrected guard skips it |
| CableTopology.MidListsComplete | Assets/PhysicCalbes/Scripts/PhysicCable.cs:183-196 | on a fully laid-out cable the loop adds points `i .. n-1` and connectors `i .. n-1` in order, whichever guard is used |
| CableTopology.StartListsComplete | Assets/PhysicCalbes/Scripts/PhysicCable.cs:175-204 | on a fully laid-out cable the points are the start, points `0 .. n-1` and the end, the connectors are `0 .. n`, and there is one more point than connectors |
| CableBreak.SumAppend | Assets/PhysicCalbes/Scripts/PhysicCable.cs:229-230 | adding one more segment adds its length to the total |
| CableBreak.SumNonNegative | Assets/PhysicCalbes/Scripts/PhysicCable.cs:229-230 | a sum of non-negative segment lengths is non-negative |
| CableBreak.MeasureLength | Assets/PhysicCalbes/Scripts/PhysicCable.cs:209-233 | the length loop throws exactly when there are more connectors than segments; otherwise it yields the sum of the first `parts` segments while the cable is plugged in, and 0 otherwise |
| CableBreak.StartMonitor | Assets/PhysicCalbes/Scripts/PhysicCable.cs:173 | the first grace period is one second and the break length is fixed from the spacing, count and multiplier |
| CableBreak.BrakeStep | Assets/PhysicCalbes/Scripts/PhysicCable.cs:235-251 | the cable breaks exactly when it is plugged in, over the break length, and the countdown passes zero; an unplugged cable keeps its timer; a relaxed or broken cable resets it to the minimum grace time; a non-negative timer stays non-negative |
| CableBreak.Update | Assets/PhysicCalbes/Scripts/PhysicCable.cs:207-252 | a frame throws exactly when the point list is too short; it breaks exactly when an end is plugged in, the measured length is over the break length and the grace timer runs out; the timer follows the break rule; a frame without a break leaves the connectors alone and changes only the timer |
| CableBreak.UpdateBreakFreesEnds | Assets/PhysicCalbes/Scripts/PhysicCable.cs:240-245 | a break leaves both ends free and keeps every link two-sided |
| CableBreak.UnpluggedNeverBreaks | Assets/PhysicCalbes/Scripts/PhysicCable.cs:210-251 | with neither end plugged in, a frame changes nothing |
| CableBreak.Run | Assets/PhysicCalbes/Scripts/PhysicCable.cs:235-251 | a break in a run of frames happens within the frames given |
| CableBreak.StretchedRunBreaksWhenOverdue | Assets/PhysicCalbes/Scripts/PhysicCable.cs:237-245 | a cable that stays stretched holds exactly while the elapsed time does not pass the grace time left, which then has counted down by the elapsed time |
| CableBreak.RelaxedFrameRestartsGrace | Assets/PhysicCalbes/Scripts/PhysicCable.cs:247-250 | after a relaxed frame, following stretched frames hold exactly while their time does not pass the minimum grace time |
| CableBreak.Repeat | Assets/PhysicCalbes/Scripts/PhysicCable.cs:57-79 | a resting cable has the given number of segments, every one of length `space` |
| CableBreak.SumRepeat | Assets/PhysicCalbes/Scripts/PhysicCable.cs:229-230 | the total length of `k` equal segments is `k` times one of them |
| CableBreak.RelaxedIsNotStretched | Assets/PhysicCalbes/Scripts/PhysicCable.cs:173 | a resting cable with spacing at most 2 and multiplier at least 1 is within its break length |
| CableBreak.UnitMultiplierRestingBound | Assets/PhysicCalbes/Scripts/PhysicCable.cs:173 | with multiplier 1, a resting cable of any number of points is within its break length exactly when the spacing is at most 2 |
| CableBreak.RestingWithinBreakLength | Assets/PhysicCalbes/Scripts/PhysicCable.cs:173 | a resting cable of `n` points is within its break length exactly when `space * (n + 1) <= space * n * multiplier + 2` |
| CableBreak.LargerMultiplierToleratesWideSpacing | Assets/PhysicCalbes/Scripts/PhysicCable.cs:173 | with multiplier 2, a resting three-point cable with spacing 3 is within its break length |
| CableBreak.WideSpacingRestsStretched | Assets/PhysicCalbes/Scripts/PhysicCable.cs:173 | a resting one-point cable with spacing 3 is already over its break length |
| Interactable.Awake | Assets/Interactions/Interactable.cs:13-16 | an interactable starts deselected and keeps its pointer setting |
| Interactable.Select | Assets/Interactions/Interactable.cs:18-21 | selecting marks the item selected and keeps its pointer setting |
| Interactable.Deselect | Assets/Interactions/Interactable.cs:23-26 | deselecting clears the mark and keeps its pointer setting |
| Interactable.SelectDeselectAlgebra | Assets/Interactions/Interactable.cs:18-26 | both transitions are idempotent, each undoes the other, the last one decides, and each is a no-op exactly when the flag already has its value |
| Layers.Record | Assets/Interactions/Liftable.cs:31-33 | the saved list has one entry per collider, in order, each with the layer its object had before anything changed |
| Layers.SetAll | Assets/Interactions/Liftable.cs:38-39 | moving the recorded objects keeps the number of objects |
| Layers.RestoreAll | Assets/Interactions/Liftable.cs:52-53 | writing the recorded layers back keeps the number of objects |
| Layers.SetAllEffect | Assets/Interactions/Liftable.cs:38-39 | afterwards every recorded object is on the held layer and every other object keeps its layer |
| Layers.RestoreAllEffect | Assets/Interactions/Liftable.cs:52-53 | every recorded object gets its recorded layer back and every other object keeps its layer |
| Layers.LayerRoundTrip | Assets/Interactions/Liftable.cs:29-53 | record, move to the held layer, restore: every layer is as before, also for objects with several colliders |
| Liftable.PickUp | Assets/Interactions/Liftable.cs:23-42 | ignored while lifted; otherwise lifted, the holder recorded, gravity off, interpolation on, and the saved layers are the prior layers of exactly the collider objects |
| Liftable.Drop | Assets/Interactions/Liftable.cs:43-56 | ignored unless lifted; otherwise not lifted, holder cleared, gravity on, no interpolation, and the saved list kept |
| Liftable.PickUpMovesColliders | Assets/Interactions/Liftable.cs:32-39 | while held every collider object is on the held layer and every other object keeps its layer |
| Liftable.PickUpDropRoundTrip | Assets/Interactions/Liftable.cs:23-56 | picking up then dropping puts every layer back and leaves the object free, without a holder, falling and not interpolated |
| Liftable.PickUpDropIdempotent | Assets/Interactions/Liftable.cs:23-56 | a second pick-up while lifted, or a second drop while not lifted, changes nothing |
| ScriptsLiftable.PickUp | Scripts/Liftable.cs:21-38 | ignored while lifted; otherwise lifted, gravity off, interpolation on, and the saved layers are the prior ones |
| ScriptsLiftable.Drop | Scripts/Liftable.cs:39-50 | ignored unless lifted; otherwise not lifted, gravity on, no interpolation, saved list kept |
| ScriptsLiftable.PickUpDropRoundTrip | Scripts/Liftable.cs:21-50 | picking up then dropping puts every layer back and leaves the object free, falling and not interpolated |
| ScriptsLiftable.PickUpDropIdempotent | Scripts/Liftable.cs:21-50 | a second pick-up or a second drop changes nothing |
| CableEnd.PickUp | Assets/PhysicCalbes/Scripts/PhysicCableCon.cs:19-25 | the lift part and the layers are the base pick-up's, and a free end's connectors are untouched |
| CableEnd.PickUpUnplugs | Assets/PhysicCalbes/Scripts/PhysicCableCon.cs:19-25 | after a pick-up the end is free, links stay two-sided, and the old partner is free too |
| CableEnd.Drop | Assets/PhysicCalbes/Scripts/PhysicCableCon.cs:27-41 | a drop without a holder throws; otherwise the lift part is the base drop, the end plugs in exactly when the gate allows it, is laid against a free connector that refuses, and otherwise stays, with no connector change unless it plugs in |
| CableEnd.DropPlugs | Assets/PhysicCalbes/Scripts/PhysicCableCon.cs:29-40 | a drop of a held end ends the lift, clears the holder, and a link made on drop joins the end and the selected connector both ways, with the selected connector owning the joint |
| CableEnd.DropKeepsSymmetry | Assets/PhysicCalbes/Scripts/PhysicCableCon.cs:27-41 | dropping keeps every link two-sided |
| ScriptsCableEnd.PickUp | Scripts/PhysicCableCon.cs:33-75 | the lift part and the layers are the base pick-up's and leave the end lifted, and a free end's connectors are untouched and silent; the dragged point is the neighbour the point list gives, and when there is one it alone changes: it becomes kinematic, loses one spring to the end, keeps its other springs, and moves towards the end without overshooting; with no neighbour no point changes |
| ScriptsCableEnd.PickUpUnplugsWithSound | Scripts/PhysicCableCon.cs:33-43 | picking up a plugged end frees both sides of the pair, keeps links two-sided, and plays the partner's and then the end's connect sound |
| ScriptsCableEnd.Drop | Scripts/PhysicCableCon.cs:17-32 | the base drop comes first; the end plugs in exactly when the gate allows it, is laid against a free connector that refuses, and otherwise stays, silently and with no connector change unless it plugs in |
| ScriptsCableEnd.DropPlugs | Scripts/PhysicCableCon.cs:17-32 | a drop keeps links two-sided, and a link made on drop joins both sides both ways, gives the selected connector the joint, and plays its connect sound |
| ScriptsCableEnd.Neighbour | Scripts/PhysicCableCon.cs:49-58 | the dragged point is the second entry of the point list for the start connector and the second-to-last for the end connector, and none for any other connector |
| ScriptsCableEnd.RemoveLast | Scripts/PhysicCableCon.cs:64-69 | exactly one spring pulling on the end is destroyed when there is one, and the others are kept |
| ScriptsCableEnd.BeginFollow | Scripts/PhysicCableCon.cs:60-69 | the neighbour becomes kinematic and loses one spring to the end, the others kept |
| ScriptsCableEnd.EndFollow | Scripts/PhysicCableCon.cs:78-80 | the neighbour is dynamic again and gains one spring to the end |
| ScriptsCableEnd.FollowPhaseRestoresSpring | Scripts/PhysicCableCon.cs:60-80 | a whole follow phase leaves the neighbour dynamic, with one spring to the end if it had at most one, and with its other springs as they were |
| ScriptsCableEnd.Clamp01 | Scripts/PhysicCableCon.cs:74 | the fraction lies in 0..1 and a value already there is kept |
| ScriptsCableEnd.Part | Scripts/PhysicCableCon.cs:74 | the share of the gap covered in one frame lies between zero and the gap |
| ScriptsCableEnd.FractionOfGap | Scripts/PhysicCableCon.cs:74 | a fraction in 0..1 of a gap lies between zero and the gap |
| ScriptsCableEnd.FollowStep | Scripts/PhysicCableCon.cs:71-76 | one frame moves the neighbour towards the held end without overshooting |
| ScriptsCableEnd.FollowStill | Scripts/PhysicCableCon.cs:71-76 | over any number of frames with the end held still, the neighbour stays between where it began and the end |
| PlayerInteractions.UpdateInput | Assets/SamplePlayerController/Scripts/PlayerInteractions.cs:57-68 | the flag follows the button, and there is one event exactly when the button changed: a start on press, an end on release |
| PlayerInteractions.InputEventsAlternate | Assets/SamplePlayerController/Scripts/PlayerInteractions.cs:57-68 | over any run of frames, start and end events alternate, beginning with the one the initial state allows |
| PlayerInteractions.InputFlagMatchesLastEvent | Assets/SamplePlayerController/Scripts/PlayerInteractions.cs:57-68 | after a run the flag is on exactly when the last event was a start, and unchanged when there was none |
| PlayerInteractions.InputFollowsButton | Assets/SamplePlayerController/Scripts/PlayerInteractions.cs:59-62 | after a run the flag is the last sample of the button |
| PlayerInteractions.UpdateSelectedObject | Assets/SamplePlayerController/Scripts/PlayerInteractions.cs:74-97 | nothing happens when the found interactable is the selection; otherwise the old one is deselected with an event, the new one is recorded even when disabled, and it is selected with an event only when enabled; every other item, and the pointer setting of every item, is kept |
| PlayerInteractions.SelectionKeepsMarks | Assets/SamplePlayerController/Scripts/PlayerInteractions.cs:80-96 | only the player's selection is ever marked selected, and a newly found interactable is marked exactly when enabled |
| PlayerInteractions.PickUpObject | Assets/SamplePlayerController/Scripts/PlayerInteractions.cs:120-130 | a null object changes nothing; otherwise it becomes the held object and is picked up with this holder and the held layer |
| PlayerInteractions.DropObject | Assets/SamplePlayerController/Scripts/PlayerInteractions.cs:131-141 | a null object changes nothing; otherwise nothing is held and the object is dropped |
| PlayerInteractions.SelectedLiftable | Assets/SamplePlayerController/Scripts/PlayerInteractions.cs:117 | the selection counts exactly when it is a `Liftable` |
| PlayerInteractions.ChangeHeldObject | Assets/SamplePlayerController/Scripts/PlayerInteractions.cs:113-119 | a held object is dropped (the `Liftable` drop runs on it and nothing is held); otherwise the selection, when it is a `Liftable`, is picked up with this holder and the held layer and becomes the held object; with nothing held and no `Liftable` selected nothing changes |
| PlayerInteractions.Teleport | Assets/SamplePlayerController/Scripts/PlayerInteractions.cs:143-147 | after a teleport nothing is held; a held object is dropped, so it is no longer lifted and the layers are the drop's; nothing changes when nothing was held |
| PlayerInteractions.PickUpTeleportRoundTrip | Assets/SamplePlayerController/Scripts/PlayerInteractions.cs:113-147 | a teleport right after an interaction start lifted a free `Liftable` gives back the player record and every layer, and leaves the object free and falling |
| PlayerInteractions.ChangeHeldTwiceRoundTrip | Assets/SamplePlayerController/Scripts/PlayerInteractions.cs:113-141 | two interaction starts with a free `Liftable` selected lift it by this player, then drop it: nothing is held, every layer is back, and the object is free and falling |
| PlayerInteractions.PickUpOfLiftedObjectIsNotOwned | Assets/SamplePlayerController/Scripts/PlayerInteractions.cs:120-130 | selecting an object another holder lifted and pressing the button records it as held although its own pick-up was ignored |
| PlayerInteractions.Update | Assets/SamplePlayerController/Scripts/PlayerInteractions.cs:45-53 | after a frame the selection is the found interactable and the flag is the button; without a press the held object, the lifts and the layers are unchanged; on a press they are what `ChangeHeldObject` makes of them; the enabled flags never change |
| PlayerInteractions.UpdatePressTwiceRoundTrip | Assets/SamplePlayerController/Scripts/PlayerInteractions.cs:45-147 | press, release and press with a free `Liftable` under the cursor lift it by this player on the first frame and drop it on the third, leaving nothing held, every layer back and the object free and falling |

## Left out

- Poses and geometry are not modelled. This covers the snap of a connected body to the connection point, the connector segments' rotation and scale, and the pose of an end laid against a connector. The model records the decision, not the transform.
- The physics simulation (forces, velocities, spring dynamics) and `UpdateHeldObjectPosition` are not modelled. The model tracks which joints and flags exist, not what they do to the bodies.
- `ScriptsConnector.Attach`: the root copy's store has no column for joints its field stops referencing. Its `Connect` fully disconnects a connected initiator first, which destroys the joint, so only a free connector whose field still references a live joint could lose one. Only a `Start` that runs after the object was already plugged in would leave a connector in that state.
- Audio, particles and material colour (`UpdateConnectorColor`) are left out. The root copy's sounds and spark plays are kept as an ordered list of cues.
- Only the first, synchronous round of each coroutine is part of the call that starts it. Later rounds are separate steps: `SparkTick` and `FollowStep`. The random wait between spark rounds is not modelled.
- Floating-point arithmetic is modelled as exact reals. Positions in the follow coroutine are one-dimensional.
- `PlayerController.cs` and `PlayerCursor.cs` are not part of this model. They are input and camera code, and the model takes their effect as inputs: the button sample, the found interactable and the teleport event.
- The sphere cast that finds the interactable under the cursor is an input of `PlayerInteractions.Update`.
- `PlayerInteractions.PickUpObject` calls the HInteractions `Liftable` pick-up. The override in `PhysicCableCon` that would run for a cable end is modelled on its own in `CableEnd`, without the virtual dispatch between the two.
- The `Interactable` base of the root copy's `Liftable` is not part of the source. `ScriptsLiftable` models only the members it shows.
- `ScriptsCableEnd.Drop`: `FindObjectOfType<PlayerInteractions>()` returning null is not modelled. The player's selection is a parameter.
- `ScriptsCableEnd.PickUp` starts a follow coroutine even when the base pick-up was ignored. A second coroutine running alongside the first is not modelled.
- `ScriptsCableEnd.PickUp`: an end outside any cable makes `GetComponentInParent<PhysicCable>()` return null, and the source then throws. The model takes the cable as a parameter. A point without a rigidbody throws the same way, and `RigValid` gives every listed point a body.
- `CableTopology.RemovePoint`: springs of other points that pull on the destroyed point are not tracked. On a fully laid-out cable there are none.
- `CableTopology.AddPoint` with a point count of 0 is covered by the model, but the serialized `Min(1)` keeps the editor from reaching it.
- The warnings the buttons and `Start` log are not modelled. A refused operation is modelled as "nothing changes".
- `CableLayout.DeleteOldParts` uses plain string prefix comparison. Culture-sensitive comparison in `StartsWith` is not modelled.
- `CableTopology.Rebuild`: spring joints that survive a reset are not tracked; the model replaces the spring set by the chain. The source leaves extras behind: each reset adds one more spring joint to the last body (line 79 of `PhysicCable.cs`), which stays when that body is the authored `point0`, and clones made by `Instantiate` copy every spring joint of `point0`. The old children whose names do not start with `Part` are not tracked either.

## Findings

| source | as written | input that shows it | evidently intended | confidence | as-written member | corrected member |
|---|---|---|---|---|---|---|
| Assets/PhysicCalbes/Scripts/PhysicCable.cs:192 | `Start` adds point `i` after testing `conn == null`, the connector it looked up just before | a cable of 2 points whose `Part_1_Conn` exists but whose `Part_1_Point` is missing: `points[2]` is null, and `Update` then reads its position | test `point == null`, so a missing point is skipped with its warning | not executed | CableTopology.StartPointsAsWrittenStoresNull | CableTopology.StartPointsNeverNull |

On the input of that row the corrected guard leaves the cable still
inconsistent: `points` then holds three entries, so two segments, while
`connectors` holds three. The length loop of `Update` runs once per
connector, reads past the end of `points` and throws
(`CableBreak.MeasureLength` returns nothing when there are more parts than
segments). The missing point is
skipped with its warning, but the cable still cannot be measured.

=== FILE: base.dfy ===
/** Shared vocabulary of the cable model: nullable references, object
    identities, and the two enumerations both connector copies declare. */
module Base {

  /** A nullable reference: `None` plays the part of C#'s `null`. */
  datatype Option<+T> = None | Some(value: T)

  /** Identity of a scene object (a GameObject together with its components). */
  type Id = nat

  /** Plug polarity of a connector (ConType). */
  datatype Polarity = Male | Female

  /** Signal colour of a connector (CableColor). */
  datatype CableColor = White | Red | Green | Yellow | Blue | Cyan | Magenta

  /** How many entries of a reference column are set: the measure that
      makes the reciprocal `Disconnect` calls of both connector copies stop. */
  function LinkCount(l: seq<Option<Id>>): (n: nat)
    ensures n <= |l|
  {
    if l == [] then 0 else (if l[|l| - 1].Some? then 1 else 0) + LinkCount(l[..|l| - 1])
  }

  /** Clearing one link lowers the count by exactly one. */
  lemma {:induction false} LinkCountClear(l: seq<Option<Id>>, i: nat)
    requires i < |l| && l[i].Some?
    ensures LinkCount(l[i := None]) == LinkCount(l) - 1
    decreases |l|
  {
    var k := |l| - 1;
    assert l[i := None][..k] == if i == k then l[..k] else l[..k][i := None];
    if i < k {
      LinkCountClear(l[..k], i);
    }
  }
}

=== FILE: cable_break.dfy ===
/** The break monitor of `PhysicCable.Update`
    (Assets/PhysicCalbes/Scripts/PhysicCable.cs): while either end of the
    cable is plugged in, the cable's length is summed every frame; a cable
    stretched past its break length for longer than the grace time is
    unplugged at both ends.

    Positions are left out: a frame is given the distances between
    consecutive entries of the point list. */
module CableBreak {
  import opened Base
  import Connector

  /** Sum of the segment lengths. */
  function Sum(seg: seq<real>): real {
    if seg == [] then 0.0 else seg[0] + Sum(seg[1..])
  }

  lemma {:induction false} SumAppend(seg: seq<real>, x: real)
    ensures Sum(seg + [x]) == Sum(seg) + x
  {
    if seg != [] {
      assert (seg + [x])[1..] == seg[1..] + [x];
      SumAppend(seg[1..], x);
    }
  }

  lemma {:induction false} SumNonNegative(seg: seq<real>)
    requires forall i | 0 <= i < |seg| :: seg[i] >= 0.0
    ensures Sum(seg) >= 0.0
  {
    if seg != [] {
      SumNonNegative(seg[1..]);
    }
  }

  /** The length loop of `Update`: one segment per connector, summed only
      while the cable is plugged in.  The point list is indexed one past the
      connector, so a connector list as long as the point list throws. */
  method MeasureLength(seg: seq<real>, parts: nat, connected: bool) returns (r: Option<real>)
    ensures r.None? <==> parts > |seg|
    ensures r.Some? ==> r.value == if connected then Sum(seg[..parts]) else 0.0
  {
    var len := 0.0;
    var i := 0;
    while i < parts
      invariant 0 <= i <= parts && i <= |seg|
      invariant len == if connected then Sum(seg[..i]) else 0.0
    {
      if i >= |seg| {
        return None;
      }
      if connected {
        assert seg[..i + 1] == seg[..i] + [seg[i]];
        SumAppend(seg[..i], seg[i]);
        len := len + seg[i];
      }
      i := i + 1;
    }
    return Some(len);
  }

  /** The settings `Start` fixes and the grace timer. */
  datatype Monitor = Monitor(brakeLength: real, minBrakeTime: real, timer: real, start: Id, end: Id)

  /** `brakeLength = space * numberOfPoints * brakeLengthMultiplier + 2`. */
  function BrakeLength(space: real, n: nat, mult: real): real {
    space * (n as real) * mult + 2.0
  }

  /** The monitor as `Start` leaves it: the first grace period is the field
      initialiser, one second, not `minBrakeTime`. */
  function StartMonitor(space: real, n: nat, mult: real, minBrakeTime: real, start: Id, end: Id): (m: Monitor)
    ensures m.timer == 1.0 && m.brakeLength == BrakeLength(space, n, mult)
  {
    Monitor(BrakeLength(space, n, mult), minBrakeTime, 1.0, start, end)
  }

  datatype Tick = Tick(timer: real, broke: bool)

  /** The break rule of one frame. */
  function BrakeStep(m: Monitor, len: real, dt: real, connected: bool): (r: Tick)
    ensures r.broke <==> connected && len > m.brakeLength && m.timer - dt < 0.0
    ensures !connected ==> r.timer == m.timer
    ensures connected && len <= m.brakeLength ==> r.timer == m.minBrakeTime
    ensures r.broke ==> r.timer == m.minBrakeTime
    ensures m.timer >= 0.0 && m.minBrakeTime >= 0.0 ==> r.timer >= 0.0
  {
    if !connected then Tick(m.timer, false)
    else if len > m.brakeLength then
      (if m.timer - dt < 0.0 then Tick(m.minBrakeTime, true) else Tick(m.timer - dt, false))
    else Tick(m.minBrakeTime, false)
  }

  datatype Frame = Frame(store: Connector.Store, monitor: Monitor, broke: bool)

  /** One `Update`: measure, apply the break rule, and on a break unplug the
      start connector and then the end connector.  `None` is the frame that
      throws because the point list is too short. */
  function Update(s: Connector.Store, m: Monitor, seg: seq<real>, parts: nat, dt: real): (r: Option<Frame>)
    requires Connector.Valid(s) && m.start < |s.link| && m.end < |s.link|
    ensures r.None? <==> parts > |seg|
    ensures r.Some? ==> Connector.Valid(r.value.store) && r.value.monitor == m.(timer := r.value.monitor.timer)
    ensures r.Some? && !r.value.broke ==> r.value.store == s
    ensures r.Some? ==>
      var connected := Connector.IsConnected(s, m.start) || Connector.IsConnected(s, m.end);
      && (r.value.broke <==> connected && Sum(seg[..parts]) > m.brakeLength && m.timer - dt < 0.0)
      && r.value.monitor.timer == BrakeStep(m, if connected then Sum(seg[..parts]) else 0.0, dt, connected).timer
  {
    if parts > |seg| then None
    else
      var connected := Connector.IsConnected(s, m.start) || Connector.IsConnected(s, m.end);
      var len := if connected then Sum(seg[..parts]) else 0.0;
      var t := BrakeStep(m, len, dt, connected);
      if t.broke then
        var s1 := Connector.Disconnect(s, m.start, None).store;
        Some(Frame(Connector.Disconnect(s1, m.end, None).store, m.(timer := t.timer), true))
      else Some(Frame(s, m.(timer := t.timer), false))
  }

  /** A break unplugs both ends and keeps every link two-sided. */
  lemma UpdateBreakFreesEnds(s: Connector.Store, m: Monitor, seg: seq<real>, parts: nat, dt: real)
    requires Connector.Valid(s) && m.start < |s.link| && m.end < |s.link|
    requires parts <= |seg|
    ensures var r := Update(s, m, seg, parts, dt).value;
      r.broke ==> !Connector.IsConnected(r.store, m.start) && !Connector.IsConnected(r.store, m.end)
    ensures Connector.Symmetric(s) ==> Connector.Symmetric(Update(s, m, seg, parts, dt).value.store)
  {
    var s1 := Connector.Disconnect(s, m.start, None).store;
    Connector.DisconnectClearsSelf(s, m.start, None);
    Connector.DisconnectClearsSelf(s1, m.end, None);
    Connector.DisconnectOnlyClears(s1, m.end, None);
    if Connector.Symmetric(s) {
      Connector.DisconnectPreservesSymmetry(s, m.start, None);
      Connector.DisconnectPreservesSymmetry(s1, m.end, None);
    }
  }

  /** A cable with nothing plugged in never breaks and its timer stands still. */
  lemma UnpluggedNeverBreaks(s: Connector.Store, m: Monitor, seg: seq<real>, parts: nat, dt: real)
    requires Connector.Valid(s) && m.start < |s.link| && m.end < |s.link| && parts <= |seg|
    requires !Connector.IsConnected(s, m.start) && !Connector.IsConnected(s, m.end)
    ensures Update(s, m, seg, parts, dt) == Some(Frame(s, m, false))
  {
  }

  // ---------------------------------------------------------------------
  // Runs of frames while the cable stays plugged in

  datatype Outcome = Holding(timer: real) | Broke(frames: nat)

  /** Successive frames of a plugged-in cable, given each frame's length
      and time step, up to the first break. */
  function Run(m: Monitor, lens: seq<real>, dts: seq<real>): (r: Outcome)
    requires |lens| == |dts|
    ensures r.Broke? ==> 1 <= r.frames <= |lens|
    decreases |lens|
  {
    if lens == [] then Holding(m.timer)
    else
      var t := BrakeStep(m, lens[0], dts[0], true);
      if t.broke then Broke(1)
      else match Run(m.(timer := t.timer), lens[1..], dts[1..])
        case Broke(k) => Broke(k + 1)
        case h => h
  }

  /** While the cable stays stretched it breaks exactly when the elapsed
      time passes what was left of the grace time; until then the timer
      has counted down by the elapsed time. */
  lemma {:induction false} StretchedRunBreaksWhenOverdue(m: Monitor, lens: seq<real>, dts: seq<real>)
    requires |lens| == |dts| && m.timer >= 0.0
    requires forall i | 0 <= i < |dts| :: dts[i] >= 0.0
    requires forall i | 0 <= i < |lens| :: lens[i] > m.brakeLength
    ensures Run(m, lens, dts).Holding? <==> Sum(dts) <= m.timer
    ensures Run(m, lens, dts).Holding? ==> Run(m, lens, dts).timer == m.timer - Sum(dts)
    decreases |lens|
  {
    if lens != [] {
      SumNonNegative(dts[1..]);
      var t := BrakeStep(m, lens[0], dts[0], true);
      if !t.broke {
        StretchedRunBreaksWhenOverdue(m.(timer := t.timer), lens[1..], dts[1..]);
      }
    }
  }

  /** A frame within the break length restores the full grace time, so a
      cable that relaxes in time never breaks on the following stretched
      frames before `minBrakeTime` has passed. */
  lemma {:induction false} RelaxedFrameRestartsGrace(m: Monitor, lens: seq<real>, dts: seq<real>)
    requires |lens| == |dts| >= 1 && lens[0] <= m.brakeLength && m.minBrakeTime >= 0.0
    requires forall i | 0 <= i < |dts| :: dts[i] >= 0.0
    requires forall i | 1 <= i < |lens| :: lens[i] > m.brakeLength
    ensures Run(m, lens, dts).Holding? <==> Sum(dts[1..]) <= m.minBrakeTime
  {
    StretchedRunBreaksWhenOverdue(m.(timer := m.minBrakeTime), lens[1..], dts[1..]);
  }

  // ---------------------------------------------------------------------
  // The break length against the relaxed cable

  function Repeat(x: real, k: nat): (r: seq<real>)
    ensures |r| == k
    ensures forall i | 0 <= i < k :: r[i] == x
  {
    if k == 0 then [] else [x] + Repeat(x, k - 1)
  }

  lemma {:induction false} SumRepeat(x: real, k: nat)
    ensures Sum(Repeat(x, k)) == (k as real) * x
  {
    if k > 0 {
      SumRepeat(x, k - 1);
      assert Repeat(x, k)[1..] == Repeat(x, k - 1);
    }
  }

  /** A cable of `n` points lying at rest has `n + 1` segments of length
      `space`: it is within the break length exactly when those segments
      fit in `space * n * mult + 2`. */
  lemma {:induction false} RestingWithinBreakLength(space: real, n: nat, mult: real)
    ensures Sum(Repeat(space, n + 1)) <= BrakeLength(space, n, mult)
            <==> space * ((n + 1) as real) <= space * (n as real) * mult + 2.0
  {
    SumRepeat(space, n + 1);
    assert ((n + 1) as real) * space == space * ((n + 1) as real);
  }

  /** With `space` at most 2 and a multiplier of at least 1 a resting
      cable is never over the break length. */
  lemma RelaxedIsNotStretched(space: real, n: nat, mult: real)
    requires 0.0 < space <= 2.0 && mult >= 1.0
    ensures Sum(Repeat(space, n + 1)) <= BrakeLength(space, n, mult)
  {
    SumRepeat(space, n + 1);
    var sn := space * (n as real);
    assert sn >= 0.0;
    assert sn * mult - sn == sn * (mult - 1.0);
    assert sn * (mult - 1.0) >= 0.0;
    assert ((n + 1) as real) * space == sn + space;
  }

  /** With a multiplier of 1 the slack of 2 is all that covers the extra
      segment: a resting cable is within the break length exactly when the
      spacing is at most 2, whatever its number of points. */
  lemma UnitMultiplierRestingBound(space: real, n: nat)
    ensures Sum(Repeat(space, n + 1)) <= BrakeLength(space, n, 1.0) <==> space <= 2.0
  {
    SumRepeat(space, n + 1);
    assert ((n + 1) as real) * space == space * (n as real) + space;
  }

  /** With a wider spacing the slack of 2 no longer covers the extra
      segment: a resting cable of one point and spacing 3 counts as
      stretched. */
  lemma WideSpacingRestsStretched()
    ensures Sum(Repeat(3.0, 2)) > BrakeLength(3.0, 1, 1.0)
  {
    RestingWithinBreakLength(3.0, 1, 1.0);
  }

  /** A larger multiplier adds slack per point: with multiplier 2 a resting
      cable of three points and spacing 3 is within the break length. */
  lemma LargerMultiplierToleratesWideSpacing()
    ensures Sum(Repeat(3.0, 4)) <= BrakeLength(3.0, 3, 2.0)
  {
    RestingWithinBreakLength(3.0, 3, 2.0);
  }
}

=== FILE: cable_end.dfy ===
/** A liftable cable end of the HPhysic namespace
    (Assets/PhysicCalbes/Scripts/PhysicCableCon.cs): a `Liftable` with a
    `Connector` on the same object.  Picking it up unplugs it; dropping it
    plugs it into the holder's selected connector, or lays it against that
    connector, or leaves it. */
module CableEnd {
  import opened Base
  import Liftable
  import Connector

  datatype End = End(lift: Liftable.Lift, conn: Id)

  /** The connectors and the object layers of the scene. */
  datatype World = World(store: Connector.Store, layers: seq<int>)

  ghost predicate Valid(e: End, w: World) {
    Connector.Valid(w.store) && e.conn < |w.store.link| && Liftable.Valid(e.lift, w.layers)
  }

  datatype Moved = Moved(lift: Liftable.Lift, world: World)

  /** `PickUp(holder, layer)`: the base pick-up, then `Disconnect()` when
      the connector is plugged in (also when the base pick-up was ignored). */
  function PickUp(e: End, w: World, holder: Option<Id>, layer: int): (r: Moved)
    requires Valid(e, w)
    ensures Valid(End(r.lift, e.conn), r.world) && |r.world.store.link| == |w.store.link|
    ensures r.lift == Liftable.PickUp(e.lift, w.layers, holder, layer).lift
    ensures r.world.layers == Liftable.PickUp(e.lift, w.layers, holder, layer).layers
    ensures !Connector.IsConnected(w.store, e.conn) ==> r.world.store == w.store
  {
    var h := Liftable.PickUp(e.lift, w.layers, holder, layer);
    var store := if Connector.IsConnected(w.store, e.conn) then Connector.Disconnect(w.store, e.conn, None).store else w.store;
    Moved(h.lift, World(store, h.layers))
  }

  /** After a pick-up the end is unplugged, and so is its old partner. */
  lemma PickUpUnplugs(e: End, w: World, holder: Option<Id>, layer: int)
    requires Valid(e, w)
    ensures !Connector.IsConnected(PickUp(e, w, holder, layer).world.store, e.conn)
    ensures Connector.Symmetric(w.store) ==> Connector.Symmetric(PickUp(e, w, holder, layer).world.store)
    ensures Connector.Symmetric(w.store) && Connector.IsConnected(w.store, e.conn) ==>
      !Connector.IsConnected(PickUp(e, w, holder, layer).world.store, w.store.link[e.conn].value)
  {
    if Connector.IsConnected(w.store, e.conn) {
      Connector.DisconnectClearsSelf(w.store, e.conn, None);
      if Connector.Symmetric(w.store) {
        Connector.DisconnectPreservesSymmetry(w.store, e.conn, None);
        var b := w.store.link[e.conn].value;
        if b != e.conn {
          Connector.DisconnectPair(w.store, e.conn, b, None);
        }
      }
    }
  }

  /** What `Drop` did with the selected connector. */
  datatype Outcome = Plugged | Snapped | Stayed

  datatype Dropped = Dropped(lift: Liftable.Lift, world: World, outcome: Outcome)

  /** `Drop`: `selected` is the connector of the holder's selected object,
      if there is one.  The holder is read before the base drop clears it,
      so a drop without a holder throws (`None`) and changes nothing.  A
      connector that passes `CanConnect` initiates the link itself; one that
      does not but is free only receives the end's pose. */
  function Drop(e: End, w: World, selected: Option<Id>): (r: Option<Dropped>)
    requires Valid(e, w)
    requires selected.Some? ==> selected.value < |w.store.link|
    ensures r.None? <==> e.lift.holder.None?
    ensures r.Some? ==> && r.value.lift == Liftable.Drop(e.lift, w.layers).lift
                        && r.value.world.layers == Liftable.Drop(e.lift, w.layers).layers
                        && Valid(End(r.value.lift, e.conn), r.value.world)
    ensures r.Some? ==> (r.value.outcome == Plugged <==> selected.Some? && Connector.CanConnect(w.store, e.conn, selected.value))
    ensures r.Some? ==> (r.value.outcome == Snapped <==>
      selected.Some? && !Connector.CanConnect(w.store, e.conn, selected.value) && !Connector.IsConnected(w.store, selected.value))
    ensures r.Some? && r.value.outcome != Plugged ==> r.value.world.store == w.store
  {
    if e.lift.holder.None? then None
    else
      var h := Liftable.Drop(e.lift, w.layers);
      if selected.None? then Some(Dropped(h.lift, World(w.store, h.layers), Stayed))
      else
        var c := selected.value;
        if Connector.CanConnect(w.store, e.conn, c) then
          Some(Dropped(h.lift, World(Connector.Connect(w.store, c, Some(e.conn)), h.layers), Plugged))
        else if !Connector.IsConnected(w.store, c) then Some(Dropped(h.lift, World(w.store, h.layers), Snapped))
        else Some(Dropped(h.lift, World(w.store, h.layers), Stayed))
  }

  /** A drop of a held end ends the lift and clears the holder, and a link made on drop
      joins exactly the end and the selected connector, both ways, with the
      selected connector owning the joint. */
  lemma DropPlugs(e: End, w: World, selected: Option<Id>)
    requires Valid(e, w) && e.lift.isLift && e.lift.holder.Some?
    requires selected.Some? ==> selected.value < |w.store.link|
    ensures var r := Drop(e, w, selected).value;
      && !r.lift.isLift && r.lift.holder.None?
      && (r.outcome == Plugged ==>
            && r.world.store.link[e.conn] == selected
            && r.world.store.link[selected.value] == Some(e.conn)
            && r.world.store.joint[selected.value] == Some(e.conn))
  {
  }

  /** Dropping keeps every link two-sided. */
  lemma DropKeepsSymmetry(e: End, w: World, selected: Option<Id>)
    requires Valid(e, w) && e.lift.holder.Some? && Connector.Symmetric(w.store)
    requires selected.Some? ==> selected.value < |w.store.link|
    ensures Connector.Symmetric(Drop(e, w, selected).value.world.store)
  {
    if selected.Some? && Connector.CanConnect(w.store, e.conn, selected.value) {
      Connector.CanConnectSymmetric(w.store, e.conn, selected.value);
      Connector.ConnectPreservesSymmetry(w.store, selected.value, e.conn);
    }
  }
}

=== FILE: cable_layout.dfy ===
/** What the "Reset points" button of `PhysicCable` (`UpdatePoints`,
    Assets/PhysicCalbes/Scripts/PhysicCable.cs) does to the children of the
    cable: it deletes every generated child, then lays the cable out again
    along the forward axis, one point every `space`, and chains the bodies
    with springs whose rest length is `space`.  Positions are offsets along
    the forward axis; rotation and scale are not modelled. */
module CableLayout {
  import opened Naming

  // ---------------------------------------------------------------------
  // Deleting the generated children

  predicate Generated(name: string) {
    StartsWith(name, CloneText)
  }

  /** Reference definition: the children that survive, in their order. */
  function Keep(children: seq<string>): (r: seq<string>)
    ensures |r| <= |children|
  {
    if children == [] then []
    else (if Generated(children[0]) then [] else [children[0]]) + Keep(children[1..])
  }

  /** A child survives exactly when it is not a generated one. */
  lemma {:induction false} KeepMembers(children: seq<string>, x: string)
    ensures x in Keep(children) <==> x in children && !Generated(x)
  {
    if children != [] {
      KeepMembers(children[1..], x);
      assert children == [children[0]] + children[1..];
    }
  }

  /** The deletion loop of `UpdatePoints`: a deleted child shifts the later
      ones down, so the index steps back and the bound shrinks. */
  method DeleteOldParts(children: seq<string>) returns (kept: seq<string>)
    ensures kept == Keep(children)
    ensures forall k | 0 <= k < |kept| :: !Generated(kept[k])
  {
    kept := children;
    var length := |children|;
    var i := 0;
    while i < length
      invariant 0 <= i <= length == |kept|
      invariant Keep(children) == kept[..i] + Keep(kept[i..])
      decreases length - i
    {
      ghost var before := kept;
      assert Keep(before[i..]) == (if Generated(before[i]) then [] else [before[i]]) + Keep(before[i + 1..]) by {
        assert before[i..][1..] == before[i + 1..];
      }
      if Generated(kept[i]) {
        kept := kept[..i] + kept[i + 1..];
        length := length - 1;
        assert kept[..i] == before[..i] && kept[i..] == before[i + 1..];
      } else {
        DropStep(kept, i);
        i := i + 1;
      }
    }
    assert kept[i..] == [] && kept[..i] == kept;
    forall k | 0 <= k < |kept| ensures !Generated(kept[k]) {
      KeepMembers(children, kept[k]);
    }
  }

  /** Stepping over a kept child moves it from the tail to the prefix. */
  lemma DropStep(kept: seq<string>, i: nat)
    requires i < |kept|
    ensures kept[..i] + ([kept[i]] + Keep(kept[i + 1..])) == kept[..i + 1] + Keep(kept[i + 1..])
  {
    assert kept[..i + 1] == kept[..i] + [kept[i]];
  }

  // ---------------------------------------------------------------------
  // Positions along the forward axis

  /** The offset `k` spaces from `start` along the forward axis. */
  function At(start: real, space: real, k: nat): real {
    start + k as real * space
  }

  /** Consecutive offsets are one space apart. */
  lemma AtNext(start: real, space: real, k: nat)
    ensures At(start, space, k + 1) == At(start, space, k) + space
  {
    calc {
      (k + 1) as real * space;
      (k as real + 1.0) * space;
      k as real * space + space;
    }
  }

  /** The laid-out cable: point `i` at `points[i]`, the connector (cable
      segment) `i` at `segments[i]`, and the end connector body at `endPos`. */
  datatype Layout = Layout(points: seq<real>, segments: seq<real>, endPos: real)

  /** The layout loop of `UpdatePoints`, from the start body at `start`:
      point `i` sits `i + 1` spaces out, the end one space after the last
      point, and each segment midway between the two bodies it joins. */
  method LayOut(start: real, space: real, n: nat) returns (l: Layout)
    ensures |l.points| == n && |l.segments| == n + 1
    ensures forall i | 0 <= i < n :: l.points[i] == At(start, space, i + 1)
    ensures forall i | 0 <= i <= n :: l.segments[i] == (At(start, space, i) + At(start, space, i + 1)) / 2.0
    ensures l.endPos == At(start, space, n + 1)
  {
    var lastPos := start;
    var points: seq<real> := [];
    var segments: seq<real> := [];
    var i := 0;
    while i < n
      invariant 0 <= i <= n && |points| == i && |segments| == i
      invariant lastPos == At(start, space, i)
      invariant forall k | 0 <= k < i :: points[k] == At(start, space, k + 1)
      invariant forall k | 0 <= k < i :: segments[k] == (At(start, space, k) + At(start, space, k + 1)) / 2.0
    {
      var newPos := lastPos + space;
      AtNext(start, space, i);
      points := points + [newPos];
      segments := segments + [(lastPos + newPos) / 2.0];
      lastPos := newPos;
      i := i + 1;
    }
    var endPos := lastPos + space;
    AtNext(start, space, n);
    segments := segments + [(lastPos + endPos) / 2.0];
    l := Layout(points, segments, endPos);
  }

  // ---------------------------------------------------------------------
  // Springs

  /** The rigid bodies of a cable: the start connector, the points, the end connector. */
  datatype Body = StartBody | PointBody(index: nat) | EndBody

  /** A spring joint: the body that owns it and the body it pulls on. */
  datatype Spring = Spring(owner: Body, to: Body)

  /** The body before point `j` along the cable. */
  function Prev(j: nat): Body {
    if j == 0 then StartBody else PointBody(j - 1)
  }

  /** The springs of a cable of `n` points: each point pulls on the body
      before it, and the last point (or the start body) pulls on the end. */
  function Chain(n: nat): set<Spring> {
    (set j | 0 <= j < n :: Spring(PointBody(j), Prev(j))) + {Spring(Prev(n), EndBody)}
  }

  /** The settings `SetSpirng` writes into a spring joint. */
  datatype SpringParams = SpringParams(
    connected: Body, spring: real, damper: real, autoConfigureAnchor: bool,
    anchorsAtOrigin: bool, minDistance: real, maxDistance: real)

  const Damper: real := 0.2

  function SetSpring(to: Body, springForce: real, space: real): (p: SpringParams)
    ensures p.connected == to && p.spring == springForce
    ensures p.minDistance == p.maxDistance == space
  {
    SpringParams(to, springForce, Damper, false, true, space, space)
  }

  /** The springs `UpdatePoints` configures, in the order it configures them. */
  method LaySprings(n: nat) returns (springs: seq<Spring>)
    ensures |springs| == n + 1
    ensures forall k | 0 <= k < n :: springs[k] == Spring(PointBody(k), Prev(k))
    ensures springs[n] == Spring(Prev(n), EndBody)
    ensures (set k | 0 <= k < |springs| :: springs[k]) == Chain(n)
  {
    springs := [];
    var last := StartBody;
    var i := 0;
    while i < n
      invariant 0 <= i <= n && |springs| == i && last == Prev(i)
      invariant forall k | 0 <= k < i :: springs[k] == Spring(PointBody(k), Prev(k))
    {
      springs := springs + [Spring(PointBody(i), last)];
      last := PointBody(i);
      i := i + 1;
    }
    springs := springs + [Spring(last, EndBody)];
    ChainOfList(springs, n);
  }

  lemma ChainOfList(springs: seq<Spring>, n: nat)
    requires |springs| == n + 1
    requires forall k | 0 <= k < n :: springs[k] == Spring(PointBody(k), Prev(k))
    requires springs[n] == Spring(Prev(n), EndBody)
    ensures (set k | 0 <= k < |springs| :: springs[k]) == Chain(n)
  {
    var listed := set k | 0 <= k < |springs| :: springs[k];
    forall x | x in Chain(n) ensures x in listed {
      if x != Spring(Prev(n), EndBody) {
        var j :| 0 <= j < n && x == Spring(PointBody(j), Prev(j));
        assert x == springs[j];
      } else {
        assert x == springs[n];
      }
    }
  }

  /** In the fresh layout every spring joins two bodies exactly its rest
      length apart, so the cable starts relaxed. */
  lemma LayoutIsRelaxed(start: real, space: real, springForce: real, n: nat, l: Layout)
    requires |l.points| == n
    requires forall i | 0 <= i < n :: l.points[i] == At(start, space, i + 1)
    requires l.endPos == At(start, space, n + 1)
    ensures forall i | 0 <= i < n ::
      l.points[i] - (if i == 0 then start else l.points[i - 1]) == SetSpring(Prev(i), springForce, space).minDistance
    ensures l.endPos - (if n == 0 then start else l.points[n - 1]) == SetSpring(EndBody, springForce, space).maxDistance
  {
    forall i | 0 <= i < n
      ensures l.points[i] - (if i == 0 then start else l.points[i - 1]) == space
    {
      AtNext(start, space, i);
    }
    AtNext(start, space, n);
  }
}

=== FILE: cable_topology.dfy ===
/** The generated children of a `PhysicCable` and how the editor buttons
    and `Start` use them (Assets/PhysicCalbes/Scripts/PhysicCable.cs).

    Point 0 and connector 0 are the authored `point0` and `connector0`;
    every other point `i` is the child named `PointName(i)` and every other
    connector `i` the child named `ConnectorName(i)`.  Since those names are
    distinct per index and kind (`Naming.NamesDistinct`), the children are
    recorded here by their indices. */
module CableTopology {
  import opened Base
  import opened CableLayout

  datatype Topology = Topology(
    n: nat,                    // numberOfPoints
    points: set<nat>,          // i such that a child PointName(i) exists
    conns: set<nat>,           // i such that a child ConnectorName(i) exists
    springs: set<Spring>)

  /** `GetPoint(i) != null`: indices up to 0 mean the authored `point0`. */
  predicate HasPoint(t: Topology, i: int) {
    i <= 0 || i in t.points
  }

  /** `GetConnector(i) != null`. */
  predicate HasConn(t: Topology, i: int) {
    i <= 0 || i in t.conns
  }

  /** The indices `lo .. hi-1`. */
  function Range(lo: nat, hi: nat): (r: set<nat>)
    ensures forall i: nat :: i in r <==> lo <= i < hi
    decreases hi - lo
  {
    if lo >= hi then {} else {lo} + Range(lo + 1, hi)
  }

  /** A cable laid out for its current point count: points `1 .. n-1`,
      connectors `1 .. n`, and the spring chain. */
  ghost predicate Complete(t: Topology) {
    t.n >= 1 && t.points == Range(1, t.n) && t.conns == Range(1, t.n + 1) && t.springs == Chain(t.n)
  }

  /** The "Add point" button: a point is inserted before the end body.  The
      spring from the last point to the end is destroyed; the new point
      pulls on the last point and on the end.  Refused when the last point
      is missing. */
  function AddPoint(t: Topology): (r: Topology)
    ensures !HasPoint(t, t.n - 1) ==> r == t
    ensures HasPoint(t, t.n - 1) ==> (r.n == t.n + 1
      && r.points == t.points + {t.n} && r.conns == t.conns + {t.n + 1})
  {
    if !HasPoint(t, t.n - 1) then t
    else
      var last := PointBody(if t.n == 0 then 0 else t.n - 1);
      var added := PointBody(t.n);
      Topology(t.n + 1, t.points + {t.n}, t.conns + {t.n + 1},
               (t.springs - {Spring(last, EndBody)}) + {Spring(added, last), Spring(added, EndBody)})
  }

  /** The "Remove point" button: refused below two points or when one of the
      children it needs is missing; otherwise the second-to-last point pulls
      on the end, and the last point (with its springs) and the last
      connector are destroyed. */
  function RemovePoint(t: Topology): (r: Topology)
    ensures t.n < 2 ==> r == t
    ensures r == t <==> t.n < 2 || !HasPoint(t, t.n - 1) || !HasConn(t, t.n) || !HasPoint(t, t.n - 2)
    ensures r != t ==> r.n == t.n - 1 >= 1 && r.points == t.points - {t.n - 1} && r.conns == t.conns - {t.n}
  {
    if t.n < 2 then t
    else if !HasPoint(t, t.n - 1) || !HasConn(t, t.n) || !HasPoint(t, t.n - 2) then t
    else
      var gone := PointBody(t.n - 1);
      Topology(t.n - 1, t.points - {t.n - 1}, t.conns - {t.n},
               (set sp | sp in t.springs && sp.owner != gone) + {Spring(PointBody(t.n - 2), EndBody)})
  }

  /** `UpdatePoints` on the children: unless one of the authored objects is
      missing (`ready` false), all generated children are replaced by a
      fresh set for the current point count. */
  function Rebuild(t: Topology, ready: bool): (r: Topology)
    ensures !ready ==> r == t
    ensures ready ==> r.n == t.n
  {
    if !ready then t else Topology(t.n, Range(1, t.n), Range(1, t.n + 1), Chain(t.n))
  }

  // ---------------------------------------------------------------------
  // Properties of the editor buttons

  /** The point count never drops below one. */
  lemma CountStaysPositive(t: Topology)
    requires t.n >= 1
    ensures AddPoint(t).n >= 1 && RemovePoint(t).n >= 1
  {
  }

  /** A complete cable is determined by its point count. */
  lemma CompleteUnique(t: Topology, u: Topology)
    requires Complete(t) && Complete(u) && t.n == u.n
    ensures t == u
  {
  }

  lemma RebuildCompletes(t: Topology)
    requires t.n >= 1
    ensures Complete(Rebuild(t, true))
  {
  }

  /** Removing the spring to the end from a chain and adding the new point's
      two springs gives the chain one point longer. */
  lemma ChainGrow(n: nat)
    requires n >= 1
    ensures (Chain(n) - {Spring(PointBody(n - 1), EndBody)})
            + {Spring(PointBody(n), PointBody(n - 1)), Spring(PointBody(n), EndBody)} == Chain(n + 1)
  {
    var lhs := (Chain(n) - {Spring(PointBody(n - 1), EndBody)})
               + {Spring(PointBody(n), PointBody(n - 1)), Spring(PointBody(n), EndBody)};
    forall x | x in Chain(n + 1) ensures x in lhs {
      if x != Spring(PointBody(n), EndBody) && x != Spring(PointBody(n), PointBody(n - 1)) {
        var j :| 0 <= j < n + 1 && x == Spring(PointBody(j), Prev(j));
        assert x in Chain(n);
      }
    }
    forall x | x in lhs ensures x in Chain(n + 1) {
      if x in Chain(n) && x != Spring(Prev(n), EndBody) {
        var j :| 0 <= j < n && x == Spring(PointBody(j), Prev(j));
      }
    }
  }

  /** Dropping the last point's springs from a chain and letting the
      point before it pull on the end gives the chain one point shorter. */
  lemma ChainShrink(n: nat)
    requires n >= 2
    ensures (set sp | sp in Chain(n) && sp.owner != PointBody(n - 1)) + {Spring(PointBody(n - 2), EndBody)} == Chain(n - 1)
  {
    var lhs := (set sp | sp in Chain(n) && sp.owner != PointBody(n - 1)) + {Spring(PointBody(n - 2), EndBody)};
    forall x | x in Chain(n - 1) ensures x in lhs {
      if x != Spring(PointBody(n - 2), EndBody) {
        var j :| 0 <= j < n - 1 && x == Spring(PointBody(j), Prev(j));
        assert x in Chain(n);
      }
    }
    forall x | x in lhs ensures x in Chain(n - 1) {
      if x != Spring(PointBody(n - 2), EndBody) {
        assert x in Chain(n) && x.owner != PointBody(n - 1);
        if x != Spring(Prev(n), EndBody) {
          var j :| 0 <= j < n && x == Spring(PointBody(j), Prev(j));
          assert j < n - 1;
        }
      }
    }
  }

  lemma AddKeepsComplete(t: Topology)
    requires Complete(t)
    ensures Complete(AddPoint(t)) && AddPoint(t).n == t.n + 1
  {
    ChainGrow(t.n);
    assert Range(1, t.n) + {t.n} == Range(1, t.n + 1);
    assert Range(1, t.n + 1) + {t.n + 1} == Range(1, t.n + 2);
  }

  lemma RemoveKeepsComplete(t: Topology)
    requires Complete(t) && t.n >= 2
    ensures Complete(RemovePoint(t)) && RemovePoint(t).n == t.n - 1
  {
    ChainShrink(t.n);
    RangeShrink(1, t.n - 1);
    RangeShrink(1, t.n);
  }

  lemma RangeShrink(lo: nat, hi: nat)
    requires lo <= hi
    ensures Range(lo, hi + 1) - {hi} == Range(lo, hi)
  {
  }

  /** "Add point" then "Remove point" restores a complete cable, and so does
      the reverse order when there are at least two points. */
  lemma AddRemoveRoundTrip(t: Topology)
    requires Complete(t)
    ensures RemovePoint(AddPoint(t)) == t
    ensures t.n >= 2 ==> AddPoint(RemovePoint(t)) == t
  {
    AddKeepsComplete(t);
    RemoveKeepsComplete(AddPoint(t));
    CompleteUnique(RemovePoint(AddPoint(t)), t);
    if t.n >= 2 {
      RemoveKeepsComplete(t);
      AddKeepsComplete(RemovePoint(t));
      CompleteUnique(AddPoint(RemovePoint(t)), t);
    }
  }

  // ---------------------------------------------------------------------
  // The lists built by Start

  /** A transform `Start` can put into its lists. */
  datatype Obj = StartObj | EndObj | PointObj(index: nat) | ConnObj(index: nat)

  function FindPoint(t: Topology, i: nat): (r: Option<Obj>)
    ensures r.Some? <==> HasPoint(t, i)
  {
    if i == 0 || i in t.points then Some(PointObj(i)) else None
  }

  function FindConn(t: Topology, i: nat): (r: Option<Obj>)
    ensures r.Some? <==> HasConn(t, i)
  {
    if i == 0 || i in t.conns then Some(ConnObj(i)) else None
  }

  /** The loop over `1 .. n-1` of `Start`, points side.  `testConn` selects
      the guard: the code as written tests the connector it just looked up
      before adding the point; testing the point is the evident intent. */
  function MidPoints(t: Topology, i: nat, testConn: bool): (r: seq<Option<Obj>>)
    decreases t.n - i
  {
    if i >= t.n then []
    else (if (if testConn then HasConn(t, i) else HasPoint(t, i)) then [FindPoint(t, i)] else []) + MidPoints(t, i + 1, testConn)
  }

  /** The loop over `1 .. n-1` of `Start`, connectors side. */
  function MidConns(t: Topology, i: nat): (r: seq<Option<Obj>>)
    decreases t.n - i
  {
    if i >= t.n then [] else (if HasConn(t, i) then [FindConn(t, i)] else []) + MidConns(t, i + 1)
  }

  /** `points` as `Start` builds it. */
  function StartPoints(t: Topology, testConn: bool): seq<Option<Obj>> {
    [Some(StartObj), Some(PointObj(0))] + MidPoints(t, 1, testConn) + [Some(EndObj)]
  }

  /** `connectors` as `Start` builds it. */
  function StartConnectors(t: Topology): seq<Option<Obj>> {
    [Some(ConnObj(0))] + MidConns(t, 1) + (if HasConn(t, t.n) then [FindConn(t, t.n)] else [])
  }

  /** The corrected guard never stores a missing point. */
  lemma {:induction false} MidPointsFound(t: Topology, i: nat)
    ensures forall k | 0 <= k < |MidPoints(t, i, false)| :: MidPoints(t, i, false)[k].Some?
    decreases t.n - i
  {
    if i < t.n {
      MidPointsFound(t, i + 1);
    }
  }

  lemma StartPointsNeverNull(t: Topology)
    ensures forall k | 0 <= k < |StartPoints(t, false)| :: StartPoints(t, false)[k].Some?
  {
    MidPointsFound(t, 1);
  }

  /** The code as written stores a null point when a connector is found but
      its point is missing; `Update` then dereferences it. */
  lemma StartPointsAsWrittenStoresNull()
    ensures var t := Topology(2, {}, {1, 2}, {});
      StartPoints(t, true)[2] == None && StartPoints(t, false)[2] == Some(EndObj)
  {
  }

  /** On a complete cable, when every child is there, both guards agree:
      the points are the start, points `0 .. n-1` and the end; the
      connectors are `0 .. n`; there is one more point than connectors. */
  lemma {:induction false} MidListsComplete(t: Topology, i: nat, testConn: bool)
    requires Complete(t) && 1 <= i <= t.n
    ensures |MidPoints(t, i, testConn)| == |MidConns(t, i)| == t.n - i
    ensures forall k | 0 <= k < t.n - i :: MidPoints(t, i, testConn)[k] == Some(PointObj(i + k))
    ensures forall k | 0 <= k < t.n - i :: MidConns(t, i)[k] == Some(ConnObj(i + k))
    decreases t.n - i
  {
    if i < t.n {
      MidListsComplete(t, i + 1, testConn);
      assert i in Range(1, t.n) && i in Range(1, t.n + 1);
    }
  }

  lemma StartListsComplete(t: Topology, testConn: bool)
    requires Complete(t)
    ensures var p := StartPoints(t, testConn); var c := StartConnectors(t);
      && |p| == t.n + 2 && |c| == t.n + 1 && |p| == |c| + 1
      && p[0] == Some(StartObj) && p[t.n + 1] == Some(EndObj)
      && (forall i | 0 <= i < t.n :: p[i + 1] == Some(PointObj(i)))
      && (forall i | 0 <= i <= t.n :: c[i] == Some(ConnObj(i)))
  {
    MidListsComplete(t, 1, testConn);
    assert t.n in Range(1, t.n + 1);
  }
}

=== FILE: connector.dfy ===
/** The connector pairing state machine of the HPhysic copy
    (Assets/PhysicCalbes/Scripts/Connector.cs).

    All connectors of a scene live in one `Store`, numbered `0 .. |link|`.
    The store keeps one column per piece of connector state, indexed by
    connector id: the serialized settings, the `ConnectedTo` reference, the
    body bound by the `FixedJoint` the `_fixedJoint` field references, the
    bodies of earlier joints the field no longer references but which were
    never destroyed, the saved and the current
    `isKinematic` flag of the body, the collider switch, and whether the
    mismatch-feedback coroutine is alive.  Pose snapping, the material colour
    and the rendering of the spark particles are not modelled. */
module Connector {
  import opened Base

  /** The serialized settings of a connector; no operation changes them. */
  datatype Config = Config(
    polarity: Polarity,
    color: CableColor,
    allowMismatch: bool,       // allowConnectDifrentCollor
    makeKinematic: bool,       // makeConnectionKinematic
    hideWhenConnected: bool,   // hideInteractableWhenIsConnected
    hasSparks: bool)           // a spark particle system is assigned

  datatype Store = Store(
    cfg: seq<Config>,
    link: seq<Option<Id>>,     // ConnectedTo
    joint: seq<Option<Id>>,    // connectedBody of the live joint _fixedJoint references
    stray: seq<seq<Id>>,       // connectedBody of live joints _fixedJoint no longer references
    wasKinematic: seq<bool>,   // partner's isKinematic saved at connect time
    kinematic: seq<bool>,      // isKinematic of the connector's own body
    collider: seq<bool>,       // the interactable collider is enabled
    sparking: seq<bool>)       // the mismatch-feedback coroutine is alive

  /** Every column covers the same connectors and every reference stays inside. */
  ghost predicate Valid(s: Store) {
    && |s.cfg| == |s.link| == |s.joint| == |s.stray| == |s.wasKinematic| == |s.kinematic| == |s.collider| == |s.sparking|
    && (forall i | 0 <= i < |s.link| && s.link[i].Some? :: s.link[i].value < |s.link|)
  }

  /** The core invariant: `a` is linked to `b` exactly when `b` is linked to `a`. */
  ghost predicate Symmetric(s: Store) {
    && Valid(s)
    && forall a, b | 0 <= a < |s.link| && 0 <= b < |s.link| && s.link[a] == Some(b) :: s.link[b] == Some(a)
  }

  predicate IsConnected(s: Store, a: Id)
    requires a < |s.link|
  {
    s.link[a].Some?
  }

  /** Connected, and to a connector of the same colour. */
  predicate IsConnectedRight(s: Store, a: Id)
    requires Valid(s) && a < |s.link|
  {
    IsConnected(s, a) && s.cfg[a].color == s.cfg[s.link[a].value].color
  }

  /** The gate every caller checks before `Connect`. */
  predicate CanConnect(s: Store, a: Id, b: Id)
    requires Valid(s) && a < |s.link| && b < |s.link|
  {
    && a != b
    && !IsConnected(s, a) && !IsConnected(s, b)
    && s.cfg[a].polarity != s.cfg[b].polarity
    && (s.cfg[a].allowMismatch || s.cfg[b].allowMismatch || s.cfg[a].color == s.cfg[b].color)
  }

  /** The hide policy, met by a connector whose connectedness is `connected`. */
  predicate HideOk(c: Config, collider: bool, connected: bool) {
    c.hideWhenConnected ==> collider == !connected
  }

  /** Every connector that hides when connected shows its collider exactly when free. */
  ghost predicate HideConsistent(s: Store)
    requires Valid(s)
  {
    forall a | 0 <= a < |s.link| :: HideOk(s.cfg[a], s.collider[a], s.link[a].Some?)
  }

  /** `UpdateInteractableWhenIsConnected` for connector `a`. */
  function Hide(s: Store, a: Id): (r: Store)
    requires Valid(s) && a < |s.link|
    ensures Valid(r) && r == s.(collider := r.collider)
    ensures r.collider == s.collider[a := r.collider[a]]
    ensures HideOk(s.cfg[a], r.collider[a], s.link[a].Some?)
    ensures !s.cfg[a].hideWhenConnected ==> r == s
  {
    if s.cfg[a].hideWhenConnected then s.(collider := s.collider[a := s.link[a].None?]) else s
  }

  /** The passive half of a connection: `self` records `second` as its
      partner, saves `second`'s kinematic flag and applies the hide policy. */
  function SetAsConnectedTo(s: Store, self: Id, second: Id): (r: Store)
    requires Valid(s) && self < |s.link| && second < |s.link|
    ensures Valid(r) && |r.link| == |s.link|
    ensures r == s.(link := s.link[self := Some(second)],
                    wasKinematic := s.wasKinematic[self := s.kinematic[second]],
                    collider := s.collider[self := r.collider[self]])
    ensures HideOk(s.cfg[self], r.collider[self], true)
  {
    Hide(s.(link := s.link[self := Some(second)], wasKinematic := s.wasKinematic[self := s.kinematic[second]]), self)
  }

  /** The part of `Disconnect` before the reciprocal call: the joint is
      destroyed, the link cleared, and the partner's kinematic flag restored
      to the saved value when this side forced it. */
  function Release(s: Store, self: Id): (r: Store)
    requires Valid(s) && self < |s.link| && s.link[self].Some?
    ensures Valid(r)
    ensures r == s.(link := s.link[self := None], joint := s.joint[self := None], kinematic := r.kinematic)
    ensures r.kinematic == if s.cfg[self].makeKinematic then s.kinematic[s.link[self].value := s.wasKinematic[self]] else s.kinematic
    ensures LinkCount(r.link) < LinkCount(s.link)
  {
    LinkCountClear(s.link, self);
    var p := s.link[self].value;
    s.(link := s.link[self := None], joint := s.joint[self := None],
       kinematic := if s.cfg[self].makeKinematic then s.kinematic[p := s.wasKinematic[self]] else s.kinematic)
  }

  /** Result of a `Disconnect` call: the new store and how many activations
      of `Disconnect` the call made (itself and its reciprocal calls). */
  datatype Unlink = Unlink(store: Store, calls: nat)

  /** `self.Disconnect(onlyThis)`: a no-op when not connected or when
      `onlyThis` names someone other than the partner; otherwise `Release`,
      then the partner is asked to disconnect from `self`, then the hide
      policy is re-applied.  Clearing the link before the reciprocal call is
      what makes the recursion stop: every proceeding activation removes one
      link. */
  function Disconnect(s: Store, self: Id, onlyThis: Option<Id>): (r: Unlink)
    requires Valid(s) && self < |s.link|
    ensures Valid(r.store) && |r.store.link| == |s.link| && r.store.cfg == s.cfg && r.calls >= 1
    ensures r.store.stray == s.stray
    ensures s.link[self].None? || (onlyThis.Some? && onlyThis != s.link[self]) ==> r == Unlink(s, 1)
    decreases LinkCount(s.link)
  {
    if s.link[self].None? || (onlyThis.Some? && onlyThis != s.link[self]) then Unlink(s, 1)
    else
      var s2 := Release(s, self);
      var inner := Disconnect(s2, s.link[self].value, Some(self));
      Unlink(Hide(inner.store, self), inner.calls + 1)
  }

  /** The bodies a joint reference binds: none for a missing or destroyed joint. */
  function Bodies(j: Option<Id>): (r: seq<Id>)
    ensures |r| <= 1 && forall x :: x in r <==> j == Some(x)
  {
    if j.Some? then [j.value] else []
  }

  /** The part of `Connect` after the optional first disconnect: `self`
      adds a new joint to `o` and points its field at it (a joint the field
      still referenced stays on the object, unreferenced), `o` records `self` and saves `self`'s
      kinematic flag, `self` saves `o`'s flag, forces it under
      `makeKinematic`, and records `o`. */
  function Attach(s: Store, self: Id, o: Id): (r: Store)
    requires Valid(s) && self < |s.link| && o < |s.link|
    ensures Valid(r)
    ensures r.cfg == s.cfg && r.sparking == s.sparking
    ensures r.link == s.link[o := Some(self)][self := Some(o)]
    ensures r.joint == s.joint[self := Some(o)]
    ensures r.stray == s.stray[self := s.stray[self] + Bodies(s.joint[self])]
    ensures self != o ==>
      && r.wasKinematic == s.wasKinematic[o := s.kinematic[self]][self := s.kinematic[o]]
      && r.kinematic == s.kinematic[o := s.cfg[self].makeKinematic || s.kinematic[o]]
      && r.collider == s.collider[o := r.collider[o]]
      && HideOk(s.cfg[o], r.collider[o], true)
  {
    var s2 := s.(joint := s.joint[self := Some(o)], stray := s.stray[self := s.stray[self] + Bodies(s.joint[self])]);
    var s3 := SetAsConnectedTo(s2, o, self);
    var s4 := s3.(wasKinematic := s3.wasKinematic[self := s3.kinematic[o]]);
    var s5 := if s.cfg[self].makeKinematic then s4.(kinematic := s4.kinematic[o := true]) else s4;
    s5.(link := s5.link[self := Some(o)])
  }

  /** `Connect(secondConnector)`; `second == None` is the null argument.
      An already connected `self` first calls `Disconnect(secondConnector)`,
      which the `onlyThis` guard turns into a no-op unless the argument is
      the current partner.  The mismatch loop starts when it is not running,
      sparks are assigned and the new link is wrong. */
  function Connect(s: Store, self: Id, second: Option<Id>): (r: Store)
    requires Valid(s) && self < |s.link|
    requires second.Some? ==> second.value < |s.link|
    ensures second.None? ==> r == s
    ensures Valid(r) && |r.link| == |s.link| && r.cfg == s.cfg
    ensures second.Some? ==>
      && r.link[self] == second
      && r.link[second.value] == Some(self)
      && r.joint[self] == second
    ensures second.Some? ==>
      r.stray == if s.link[self] == second then s.stray else s.stray[self := s.stray[self] + Bodies(s.joint[self])]
  {
    if second.None? then s
    else
      var o := second.value;
      var s1 := if IsConnected(s, self) then Disconnect(s, self, second).store else s;
      assert s.link[self] == second ==> s1.stray[self := s1.stray[self] + Bodies(s1.joint[self])] == s.stray by {
        if s.link[self] == second {
          DisconnectClearsSelf(s, self, second);
          assert s1.stray[self] + Bodies(s1.joint[self]) == s.stray[self];
        }
      }
      var s6 := Attach(s1, self, o);
      var startSparks := !s6.sparking[self] && s.cfg[self].hasSparks && !IsConnectedRight(s6, self);
      Hide(s6.(sparking := s6.sparking[self := s6.sparking[self] || startSparks]), self)
  }

  /** `Start`: an authored link is re-made through `Connect`. */
  function Start(s: Store, self: Id): (r: Store)
    requires Valid(s) && self < |s.link|
    ensures Valid(r) && |r.link| == |s.link|
    ensures s.link[self].None? ==> r == s
    ensures s.link[self].Some? ==> r.link[self] == s.link[self]
  {
    if s.link[self].None? then s
    else Connect(s.(link := s.link[self := None]), self, s.link[self])
  }

  /** `OnDisable`: an unconditional `Disconnect()`. */
  function OnDisable(s: Store, self: Id): (r: Store)
    requires Valid(s) && self < |s.link|
    ensures Valid(r) && |r.link| == |s.link| && r.link[self].None?
  {
    DisconnectClearsSelf(s, self, None);
    Disconnect(s, self, None).store
  }

  /** One wake-up of the mismatch-feedback coroutine: while it is alive and
      the link is still wrong the sparks play again (`played`), otherwise
      the coroutine ends. */
  datatype Spark = Spark(store: Store, played: bool)

  function SparkTick(s: Store, self: Id): (r: Spark)
    requires Valid(s) && self < |s.link|
    ensures Valid(r.store)
    ensures r.played <==> s.sparking[self] && s.cfg[self].hasSparks && IsConnected(s, self) && !IsConnectedRight(s, self)
    ensures r.store == if r.played then s else s.(sparking := s.sparking[self := false])
  {
    if s.sparking[self] && s.cfg[self].hasSparks && IsConnected(s, self) && !IsConnectedRight(s, self) then Spark(s, true)
    else Spark(s.(sparking := s.sparking[self := false]), false)
  }

  // ---------------------------------------------------------------------
  // CanConnect

  lemma CanConnectIrreflexive(s: Store, a: Id)
    requires Valid(s) && a < |s.link|
    ensures !CanConnect(s, a, a)
  {
  }

  lemma CanConnectGates(s: Store, a: Id, b: Id)
    requires Valid(s) && a < |s.link| && b < |s.link|
    ensures s.cfg[a].polarity == s.cfg[b].polarity ==> !CanConnect(s, a, b)
    ensures IsConnected(s, a) || IsConnected(s, b) ==> !CanConnect(s, a, b)
    ensures a != b && !IsConnected(s, a) && !IsConnected(s, b) && s.cfg[a].polarity != s.cfg[b].polarity
            ==> (CanConnect(s, a, b) <==> s.cfg[a].allowMismatch || s.cfg[b].allowMismatch || s.cfg[a].color == s.cfg[b].color)
  {
  }

  lemma CanConnectSymmetric(s: Store, a: Id, b: Id)
    requires Valid(s) && a < |s.link| && b < |s.link|
    ensures CanConnect(s, a, b) <==> CanConnect(s, b, a)
  {
  }

  // ---------------------------------------------------------------------
  // Disconnect

  /** Inside `Disconnect` no connector gains or changes a link or a joint:
      each one keeps it, or loses it. */
  lemma {:induction false} DisconnectOnlyClears(s: Store, self: Id, onlyThis: Option<Id>)
    requires Valid(s) && self < |s.link|
    ensures var r := Disconnect(s, self, onlyThis).store;
      forall x | 0 <= x < |s.link| ::
        && (r.link[x] == s.link[x] || r.link[x].None?)
        && (r.joint[x] == s.joint[x] || r.joint[x].None?)
    decreases LinkCount(s.link)
  {
    if s.link[self].None? || (onlyThis.Some? && onlyThis != s.link[self]) {
    } else {
      var s2 := Release(s, self);
      DisconnectOnlyClears(s2, s.link[self].value, Some(self));
    }
  }

  /** A `Disconnect` the guard lets through leaves `self` free, and
      without the joint its field referenced when it was connected. */
  lemma {:induction false} DisconnectClearsSelf(s: Store, self: Id, onlyThis: Option<Id>)
    requires Valid(s) && self < |s.link|
    requires onlyThis.None? || onlyThis == s.link[self]
    ensures Disconnect(s, self, onlyThis).store.link[self].None?
    ensures s.link[self].Some? ==> Disconnect(s, self, onlyThis).store.joint[self].None?
  {
    if s.link[self].Some? {
      var s2 := Release(s, self);
      DisconnectOnlyClears(s2, s.link[self].value, Some(self));
    }
  }

  /** Every connector whose link `Disconnect` changed ends free and meets
      the hide policy; every other one keeps its collider. */
  lemma {:induction false} DisconnectHides(s: Store, self: Id, onlyThis: Option<Id>)
    requires Valid(s) && self < |s.link|
    ensures var r := Disconnect(s, self, onlyThis).store;
      forall x | 0 <= x < |s.link| ::
        || (r.link[x] == s.link[x] && r.collider[x] == s.collider[x])
        || (r.link[x].None? && HideOk(s.cfg[x], r.collider[x], false))
    decreases LinkCount(s.link)
  {
    if s.link[self].None? || (onlyThis.Some? && onlyThis != s.link[self]) {
    } else {
      var s2 := Release(s, self);
      DisconnectHides(s2, s.link[self].value, Some(self));
      DisconnectOnlyClears(s2, s.link[self].value, Some(self));
    }
  }

  /** The hide policy holds again after every `Disconnect`. */
  lemma DisconnectKeepsHideConsistent(s: Store, a: Id, onlyThis: Option<Id>)
    requires Valid(s) && a < |s.link| && HideConsistent(s)
    ensures HideConsistent(Disconnect(s, a, onlyThis).store)
  {
    DisconnectHides(s, a, onlyThis);
  }

  /** Disconnecting one side of a symmetric pair clears both sides, destroys
      both joints, restores the forced kinematic flags, and leaves every
      other connector alone; it takes exactly three activations, the last of
      which finds `a` already cleared. */
  lemma DisconnectPair(s: Store, a: Id, b: Id, onlyThis: Option<Id>)
    requires Valid(s) && a < |s.link| && a != b && s.link[a] == Some(b)
    requires b < |s.link| && s.link[b] == Some(a)
    requires onlyThis.None? || onlyThis == Some(b)
    ensures var r := Disconnect(s, a, onlyThis);
      && r.calls == 3
      && r.store.link == s.link[a := None][b := None]
      && r.store.joint == s.joint[a := None][b := None]
      && r.store.kinematic == s.kinematic
           [b := if s.cfg[a].makeKinematic then s.wasKinematic[a] else s.kinematic[b]]
           [a := if s.cfg[b].makeKinematic then s.wasKinematic[b] else s.kinematic[a]]
      && r.store.wasKinematic == s.wasKinematic && r.store.sparking == s.sparking
      && (forall x | 0 <= x < |s.link| && x != a && x != b :: r.store.collider[x] == s.collider[x])
  {
    DisconnectPairSteps(s, a, b, onlyThis);
  }

  /** The three activations of a pair disconnect, as a composition. */
  lemma DisconnectPairSteps(s: Store, a: Id, b: Id, onlyThis: Option<Id>)
    requires Valid(s) && a < |s.link| && a != b && s.link[a] == Some(b)
    requires b < |s.link| && s.link[b] == Some(a)
    requires onlyThis.None? || onlyThis == Some(b)
    ensures Disconnect(s, a, onlyThis) == Unlink(Hide(Hide(Release(Release(s, a), b), b), a), 3)
  {
    var s2 := Release(s, a);
    var t2 := Release(s2, b);
    assert Disconnect(t2, a, Some(b)) == Unlink(t2, 1);
    assert Disconnect(s2, b, Some(a)) == Unlink(Hide(t2, b), 2);
  }

  /** Clearing both sides of a symmetric pair keeps the store symmetric. */
  lemma ClearPairKeepsSymmetry(s: Store, r: Store, a: Id, b: Id)
    requires Symmetric(s) && a < |s.link| && b < |s.link| && s.link[a] == Some(b)
    requires Valid(r) && r.link == s.link[a := None][b := None]
    ensures Symmetric(r)
  {
    forall x, y | 0 <= x < |r.link| && 0 <= y < |r.link| && r.link[x] == Some(y)
      ensures r.link[y] == Some(x)
    {
      assert x != a && x != b && r.link[x] == s.link[x];
      assert s.link[y] == Some(x);
      assert y != a && y != b && r.link[y] == s.link[y];
    }
  }

  /** A symmetric store stays symmetric under `Disconnect`. */
  lemma DisconnectPreservesSymmetry(s: Store, a: Id, onlyThis: Option<Id>)
    requires a < |s.link| && Symmetric(s)
    ensures Symmetric(Disconnect(s, a, onlyThis).store)
  {
    if s.link[a].None? || (onlyThis.Some? && onlyThis != s.link[a]) {
    } else if s.link[a] == Some(a) {
      var s2 := Release(s, a);
      assert Disconnect(s2, a, Some(a)) == Unlink(s2, 1);
      ClearPairKeepsSymmetry(s, Disconnect(s, a, onlyThis).store, a, a);
    } else {
      var b := s.link[a].value;
      DisconnectPair(s, a, b, onlyThis);
      ClearPairKeepsSymmetry(s, Disconnect(s, a, onlyThis).store, a, b);
    }
  }

  /** A second `Disconnect` with the same argument changes nothing. */
  lemma DisconnectIdempotent(s: Store, a: Id, onlyThis: Option<Id>)
    requires Valid(s) && a < |s.link|
    ensures var r := Disconnect(s, a, onlyThis).store;
      Disconnect(r, a, onlyThis).store == r
  {
    if s.link[a].Some? && (onlyThis.None? || onlyThis == s.link[a]) {
      DisconnectClearsSelf(s, a, onlyThis);
    }
  }

  /** No chain of reciprocal calls is longer than three activations. */
  lemma DisconnectCallsAtMostThree(s: Store, a: Id, onlyThis: Option<Id>)
    requires Valid(s) && a < |s.link|
    ensures Disconnect(s, a, onlyThis).calls <= 3
  {
    if s.link[a].None? || (onlyThis.Some? && onlyThis != s.link[a]) {
    } else {
      var p := s.link[a].value;
      var s2 := Release(s, a);
      if s2.link[p] != Some(a) {
        assert Disconnect(s2, p, Some(a)).calls == 1;
      } else {
        var t2 := Release(s2, p);
        assert Disconnect(t2, a, Some(p)).calls == 1;
      }
    }
  }

  // ---------------------------------------------------------------------
  // Connect

  /** Connecting two free connectors: both record each other, only the
      initiator owns the new joint, each side saved the other's prior
      kinematic flag, the partner is forced kinematic under
      `makeKinematic`, and the mismatch loop starts exactly when the
      colours differ and sparks are assigned, whatever `allowMismatch` says. */
  lemma ConnectFree(s: Store, a: Id, b: Id)
    requires Symmetric(s) && a < |s.link| && b < |s.link| && a != b
    requires !IsConnected(s, a) && !IsConnected(s, b)
    ensures var r := Connect(s, a, Some(b));
      && r.link == s.link[a := Some(b)][b := Some(a)]
      && r.joint == s.joint[a := Some(b)]
      && r.wasKinematic == s.wasKinematic[a := s.kinematic[b]][b := s.kinematic[a]]
      && r.kinematic == s.kinematic[b := s.cfg[a].makeKinematic || s.kinematic[b]]
      && r.sparking == s.sparking[a := s.sparking[a] || (s.cfg[a].hasSparks && s.cfg[a].color != s.cfg[b].color)]
      && Symmetric(r)
  {
    var s6 := Attach(s, a, b);
    assert s6.link == s.link[a := Some(b)][b := Some(a)];
  }

  /** The invariant under the precondition callers actually use. */
  lemma ConnectPreservesSymmetry(s: Store, a: Id, b: Id)
    requires Symmetric(s) && a < |s.link| && b < |s.link| && CanConnect(s, a, b)
    ensures Symmetric(Connect(s, a, Some(b)))
  {
    ConnectFree(s, a, b);
  }

  /** Reconnecting to the current partner: the `onlyThis` guard lets the
      first disconnect through, and the pair is linked again. */
  lemma ReconnectSamePartner(s: Store, a: Id, b: Id)
    requires Symmetric(s) && a < |s.link| && a != b && s.link[a] == Some(b)
    ensures b < |s.link|
    ensures var r := Connect(s, a, Some(b));
      r.link == s.link && Symmetric(r)
  {
    DisconnectPair(s, a, b, Some(b));
    DisconnectPreservesSymmetry(s, a, Some(b));
    var d := Disconnect(s, a, Some(b)).store;
    ConnectFree(d, a, b);
  }

  /** Reconnecting to someone else: the `onlyThis` guard turns the first
      disconnect into a no-op, so the old partner keeps pointing at `a`
      and the store is no longer symmetric. */
  lemma ReconnectKeepsOldPartner(s: Store, a: Id, b: Id, c: Id)
    requires Symmetric(s) && a < |s.link| && b < |s.link| && s.link[a] == Some(c)
    requires c != a && b != a && b != c && !IsConnected(s, b)
    ensures c < |s.link|
    ensures var r := Connect(s, a, Some(b));
      && r.link[a] == Some(b) && r.link[b] == Some(a)
      && r.link[c] == Some(a)
      && !Symmetric(r)
  {
    assert Disconnect(s, a, Some(b)) == Unlink(s, 1);
  }

  /** Reconnecting `a`, which owns the joint to its partner `c`, to `b`:
      the first disconnect is a no-op, so the new joint only replaces the
      field's reference, and `a` stays welded to `c` by a joint that no
      later `Disconnect` destroys. */
  lemma ReconnectLeaksJoint(s: Store, a: Id, b: Id, c: Id)
    requires Symmetric(s) && a < |s.link| && b < |s.link| && s.link[a] == Some(c) && s.joint[a] == Some(c)
    requires c != a && b != a && b != c && !IsConnected(s, b)
    ensures var r := Connect(s, a, Some(b));
      && r.joint[a] == Some(b) && r.stray[a] == s.stray[a] + [c]
      && var d := Disconnect(r, a, None).store;
         d.link[a].None? && d.joint[a].None? && c in d.stray[a]
  {
    var r := Connect(s, a, Some(b));
    DisconnectClearsSelf(r, a, None);
    assert r.stray[a] == s.stray[a] + [c];
    assert c == r.stray[a][|r.stray[a]| - 1];
  }

  /** Plugging a free connector `c` into `a`, which is linked to `b`,
      does not disconnect `b`: `Connect` only disconnects its own side. */
  lemma StealLeavesDangling(s: Store, c: Id, a: Id, b: Id)
    requires Symmetric(s) && c < |s.link| && a < |s.link| && s.link[a] == Some(b)
    requires a != b && c != a && c != b && !IsConnected(s, c)
    ensures b < |s.link|
    ensures var r := Connect(s, c, Some(a));
      r.link[a] == Some(c) && r.link[b] == Some(a) && !Symmetric(r)
  {
  }

  /** The columns after a fresh pair is made and unlinked again. */
  lemma UnlinkFreshPair(s: Store, t: Store, r: Store, a: Id, b: Id, from: Id, other: Id)
    requires Valid(s) && a < |s.link| && b < |s.link| && a != b
    requires (from == a && other == b) || (from == b && other == a)
    requires t.link == s.link[a := Some(b)][b := Some(a)]
    requires t.joint == s.joint[a := Some(b)]
    requires t.wasKinematic == s.wasKinematic[a := s.kinematic[b]][b := s.kinematic[a]]
    requires t.kinematic == s.kinematic[b := s.cfg[a].makeKinematic || s.kinematic[b]]
    requires r.link == t.link[from := None][other := None]
    requires r.joint == t.joint[from := None][other := None]
    requires r.kinematic == t.kinematic
      [other := if s.cfg[from].makeKinematic then t.wasKinematic[from] else t.kinematic[other]]
      [from := if s.cfg[other].makeKinematic then t.wasKinematic[other] else t.kinematic[from]]
    ensures r.link == s.link[a := None][b := None] && r.kinematic == s.kinematic
    ensures r.joint == s.joint[a := None][b := None]
  {
    assert r.kinematic[a] == s.kinematic[a] && r.kinematic[b] == s.kinematic[b];
    forall i | 0 <= i < |s.kinematic| && i != a && i != b
      ensures r.kinematic[i] == s.kinematic[i]
    {
      assert r.kinematic[i] == t.kinematic[i];
    }
  }

  /** Connect then Disconnect (from either side) gives both bodies their
      original kinematic flags back, leaves both connectors free and
      destroys the joints both sides might own. */
  lemma ConnectDisconnectRestoresKinematic(s: Store, a: Id, b: Id, from: Id)
    requires Symmetric(s) && a < |s.link| && b < |s.link| && CanConnect(s, a, b)
    requires from == a || from == b
    ensures var t := Connect(s, a, Some(b));
      var r := Disconnect(t, from, None).store;
      && r.link == s.link && r.kinematic == s.kinematic
      && r.joint == s.joint[a := None][b := None]
  {
    ConnectFree(s, a, b);
    UnlinkAfterConnect(s, Connect(s, a, Some(b)), a, b, from);
  }

  lemma UnlinkAfterConnect(s: Store, t: Store, a: Id, b: Id, from: Id)
    requires Valid(s) && a < |s.link| && b < |s.link| && a != b && (from == a || from == b)
    requires s.link[a].None? && s.link[b].None?
    requires Valid(t) && t.cfg == s.cfg
    requires t.link == s.link[a := Some(b)][b := Some(a)]
    requires t.joint == s.joint[a := Some(b)]
    requires t.wasKinematic == s.wasKinematic[a := s.kinematic[b]][b := s.kinematic[a]]
    requires t.kinematic == s.kinematic[b := s.cfg[a].makeKinematic || s.kinematic[b]]
    ensures var r := Disconnect(t, from, None).store;
      && r.link == s.link && r.kinematic == s.kinematic
      && r.joint == s.joint[a := None][b := None]
  {
    var other := if from == a then b else a;
    DisconnectPair(t, from, other, None);
    UnlinkFreshPair(s, t, Disconnect(t, from, None).store, a, b, from, other);
    assert s.link[a := None][b := None] == s.link;
  }

  /** The hide policy holds again after every `Connect`. */
  lemma ConnectKeepsHideConsistent(s: Store, a: Id, second: Option<Id>)
    requires Valid(s) && a < |s.link| && HideConsistent(s)
    requires second.Some? ==> second.value < |s.link|
    ensures HideConsistent(Connect(s, a, second))
  {
    if second.Some? {
      var o := second.value;
      var s1 := if IsConnected(s, a) then Disconnect(s, a, second).store else s;
      if IsConnected(s, a) {
        DisconnectKeepsHideConsistent(s, a, second);
      }
      AttachKeepsHideElsewhere(s1, a, o);
    }
  }

  /** `Attach` keeps the hide policy everywhere but at the initiator, whose
      collider `Connect` updates last. */
  lemma AttachKeepsHideElsewhere(s: Store, a: Id, o: Id)
    requires Valid(s) && a < |s.link| && o < |s.link| && HideConsistent(s)
    ensures var r := Attach(s, a, o);
      forall x | 0 <= x < |r.link| && x != a :: HideOk(r.cfg[x], r.collider[x], r.link[x].Some?)
  {
  }

  // ---------------------------------------------------------------------
  // Start and the mismatch loop

  /** `Start` of either side of an authored symmetric link keeps it. */
  lemma StartKeepsAuthoredLink(s: Store, a: Id, b: Id)
    requires Symmetric(s) && a < |s.link| && a != b && s.link[a] == Some(b)
    ensures b < |s.link|
    ensures var r := Start(s, a);
      r.link == s.link && r.joint[a] == Some(b) && Symmetric(r)
  {
    var s0 := s.(link := s.link[a := None]);
    var s6 := Attach(s0, a, b);
    assert s6.link == s.link;
  }

  /** When both sides of an authored link run `Start`, BOTH own a joint. */
  lemma StartBothSidesOwnTwoJoints(s: Store, a: Id, b: Id)
    requires Symmetric(s) && a < |s.link| && a != b && s.link[a] == Some(b)
    ensures b < |s.link|
    ensures var r := Start(Start(s, a), b);
      r.link == s.link && r.joint[a] == Some(b) && r.joint[b] == Some(a) && Symmetric(r)
  {
    StartKeepsAuthoredLink(s, a, b);
    var s1 := Start(s, a);
    StartKeepsAuthoredLink(s1, b, a);
    var s0 := s1.(link := s1.link[b := None]);
    var s6 := Attach(s0, b, a);
    assert s6.joint[a] == Some(b);
  }

  /** After a disconnect the next wake-up of the mismatch loop plays nothing
      and ends the loop. */
  lemma MismatchLoopStopsAfterDisconnect(s: Store, a: Id)
    requires Valid(s) && a < |s.link|
    ensures var d := OnDisable(s, a);
      var t := SparkTick(d, a); !t.played && !t.store.sparking[a]
  {
  }
}

=== FILE: interactable.dfy ===
/** The selection flag of an `Interactable` (Assets/Interactions/Interactable.cs). */
module Interactable {

  datatype Item = Item(showPointer: bool, isSelected: bool)

  /** `Awake` starts every interactable deselected. */
  function Awake(i: Item): (r: Item)
    ensures !r.isSelected && r.showPointer == i.showPointer
  {
    Deselect(i)
  }

  function Select(i: Item): (r: Item)
    ensures r.isSelected && r.showPointer == i.showPointer
  {
    i.(isSelected := true)
  }

  function Deselect(i: Item): (r: Item)
    ensures !r.isSelected && r.showPointer == i.showPointer
  {
    i.(isSelected := false)
  }

  /** Both transitions are idempotent, each undoes the other, and the last
      one applied decides the flag. */
  lemma SelectDeselectAlgebra(i: Item)
    ensures Select(Select(i)) == Select(i) && Deselect(Deselect(i)) == Deselect(i)
    ensures Deselect(Select(i)) == Deselect(i) && Select(Deselect(i)) == Select(i)
    ensures Select(i) == i <==> i.isSelected
    ensures Deselect(i) == i <==> !i.isSelected
  {
  }
}

=== FILE: layers.dfy ===
/** The per-collider layer bookkeeping both `Liftable` copies share
    (Assets/Interactions/Liftable.cs, Scripts/Liftable.cs): on pick-up the
    layer of every object holding a collider is recorded, then all of them
    are moved to the held layer; on drop each recorded layer is written
    back.

    The scene's layers are a column indexed by object id. */
module Layers {
  import opened Base

  /** One entry of the saved list: an object and the layer it had. */
  datatype Saved = Saved(obj: Id, layer: int)

  ghost predicate InRange(cols: seq<Id>, layers: seq<int>) {
    forall k | 0 <= k < |cols| :: cols[k] < |layers|
  }

  ghost predicate SavedInRange(saved: seq<Saved>, layers: seq<int>) {
    forall k | 0 <= k < |saved| :: saved[k].obj < |layers|
  }

  function Objs(saved: seq<Saved>): set<Id> {
    set k | 0 <= k < |saved| :: saved[k].obj
  }

  /** The first loop: the whole list is recorded before any layer changes,
      so an object listed twice (two colliders) is saved with its original
      layer both times. */
  function Record(layers: seq<int>, cols: seq<Id>): (r: seq<Saved>)
    requires InRange(cols, layers)
    ensures |r| == |cols| && SavedInRange(r, layers)
    ensures forall k | 0 <= k < |cols| :: r[k].obj == cols[k] && r[k].layer == layers[cols[k]]
  {
    if cols == [] then [] else [Saved(cols[0], layers[cols[0]])] + Record(layers, cols[1..])
  }

  /** The second loop: every recorded object goes to `layer`. */
  function SetAll(layers: seq<int>, saved: seq<Saved>, layer: int): (r: seq<int>)
    requires SavedInRange(saved, layers)
    ensures |r| == |layers|
    decreases |saved|
  {
    if saved == [] then layers else SetAll(layers[saved[0].obj := layer], saved[1..], layer)
  }

  /** The drop loop: every recorded object gets its recorded layer back. */
  function RestoreAll(layers: seq<int>, saved: seq<Saved>): (r: seq<int>)
    requires SavedInRange(saved, layers)
    ensures |r| == |layers|
    decreases |saved|
  {
    if saved == [] then layers else RestoreAll(layers[saved[0].obj := saved[0].layer], saved[1..])
  }

  /** After the second loop every recorded object is on the held layer and
      every other object keeps its layer. */
  lemma {:induction false} SetAllEffect(layers: seq<int>, saved: seq<Saved>, layer: int)
    requires SavedInRange(saved, layers)
    ensures forall o | 0 <= o < |layers| ::
      SetAll(layers, saved, layer)[o] == if o in Objs(saved) then layer else layers[o]
    decreases |saved|
  {
    if saved != [] {
      SetAllEffect(layers[saved[0].obj := layer], saved[1..], layer);
      assert Objs(saved) == {saved[0].obj} + Objs(saved[1..]) by {
        forall x | x in Objs(saved) ensures x in {saved[0].obj} + Objs(saved[1..]) {
          var k :| 0 <= k < |saved| && saved[k].obj == x;
          if k > 0 {
            assert saved[1..][k - 1].obj == x;
          }
        }
      }
    }
  }

  /** Entries whose recorded layer is the layer the object had in `orig`. */
  ghost predicate RecordedFrom(saved: seq<Saved>, orig: seq<int>) {
    forall k | 0 <= k < |saved| :: saved[k].obj < |orig| && saved[k].layer == orig[saved[k].obj]
  }

  /** Restoring entries recorded from `orig` puts every recorded object
      back on its `orig` layer and leaves the rest alone. */
  lemma {:induction false} RestoreAllEffect(layers: seq<int>, saved: seq<Saved>, orig: seq<int>)
    requires SavedInRange(saved, layers) && RecordedFrom(saved, orig)
    ensures forall o | 0 <= o < |layers| ::
      RestoreAll(layers, saved)[o] == if o in Objs(saved) then orig[o] else layers[o]
    decreases |saved|
  {
    if saved != [] {
      RestoreAllEffect(layers[saved[0].obj := saved[0].layer], saved[1..], orig);
      assert Objs(saved) == {saved[0].obj} + Objs(saved[1..]) by {
        forall x | x in Objs(saved) ensures x in {saved[0].obj} + Objs(saved[1..]) {
          var k :| 0 <= k < |saved| && saved[k].obj == x;
          if k > 0 {
            assert saved[1..][k - 1].obj == x;
          }
        }
      }
    }
  }

  /** Record, move everything to the held layer, restore: every layer is
      back where it was. */
  lemma LayerRoundTrip(layers: seq<int>, cols: seq<Id>, layer: int)
    requires InRange(cols, layers)
    ensures var saved := Record(layers, cols);
      RestoreAll(SetAll(layers, saved, layer), saved) == layers
  {
    var saved := Record(layers, cols);
    var mid := SetAll(layers, saved, layer);
    SetAllEffect(layers, saved, layer);
    RestoreAllEffect(mid, saved, layers);
    var r := RestoreAll(mid, saved);
    assert forall o | 0 <= o < |layers| :: r[o] == layers[o];
  }
}

=== FILE: liftable.dfy ===
/** A `Liftable` of the HInteractions namespace (Assets/Interactions/Liftable.cs):
    an interactable that an object holder can pick up and drop.  The
    `Interactable` part lives in the scene's item column. */
module Liftable {
  import opened Base
  import opened Layers

  /** `RigidbodyInterpolation`. */
  datatype Interpolation = NoInterpolation | Interpolate | Extrapolate

  datatype Lift = Lift(
    isLift: bool,
    holder: Option<Id>,        // ObjectHolder
    gravity: bool,             // Rigidbody.useGravity
    interp: Interpolation,     // Rigidbody.interpolation
    cols: seq<Id>,             // objects of the collider components below it, in order
    saved: seq<Saved>)         // _defaultLayers

  /** The collider objects and the saved list refer to objects of the scene. */
  ghost predicate Valid(l: Lift, layers: seq<int>) {
    InRange(l.cols, layers) && SavedInRange(l.saved, layers)
  }

  datatype Held = Held(lift: Lift, layers: seq<int>)

  /** `PickUp(holder, layer)`: ignored while lifted; otherwise the holder is
      recorded, the collider layers are saved, gravity goes off,
      interpolation on, and every collider object moves to `layer`. */
  function PickUp(l: Lift, layers: seq<int>, holder: Option<Id>, layer: int): (r: Held)
    requires Valid(l, layers)
    ensures Valid(r.lift, r.layers) && |r.layers| == |layers| && r.lift.cols == l.cols
    ensures l.isLift ==> r == Held(l, layers)
    ensures !l.isLift ==> && r.lift.isLift && r.lift.holder == holder
                          && !r.lift.gravity && r.lift.interp == Interpolate
                          && RecordedFrom(r.lift.saved, layers) && Objs(r.lift.saved) == set k | 0 <= k < |l.cols| :: l.cols[k]
  {
    if l.isLift then Held(l, layers)
    else
      var saved := Record(layers, l.cols);
      Held(Lift(true, holder, false, Interpolate, l.cols, saved), SetAll(layers, saved, layer))
  }

  /** `Drop`: ignored unless lifted; otherwise the holder is cleared,
      gravity and interpolation get fixed values (not the ones before the
      pick-up) and every saved layer is written back. */
  function Drop(l: Lift, layers: seq<int>): (r: Held)
    requires Valid(l, layers)
    ensures Valid(r.lift, r.layers) && |r.layers| == |layers| && r.lift.cols == l.cols && !r.lift.isLift
    ensures !l.isLift ==> r == Held(l, layers)
    ensures l.isLift ==> && r.lift.holder.None? && r.lift.gravity && r.lift.interp == NoInterpolation
                         && r.lift.saved == l.saved
  {
    if !l.isLift then Held(l, layers)
    else Held(l.(isLift := false, holder := None, gravity := true, interp := NoInterpolation), RestoreAll(layers, l.saved))
  }

  /** While held, every collider object is on the held layer and every
      other object keeps its layer. */
  lemma PickUpMovesColliders(l: Lift, layers: seq<int>, holder: Option<Id>, layer: int)
    requires Valid(l, layers) && !l.isLift
    ensures var r := PickUp(l, layers, holder, layer).layers;
      forall o | 0 <= o < |layers| :: r[o] == if o in l.cols then layer else layers[o]
  {
    var saved := Record(layers, l.cols);
    SetAllEffect(layers, saved, layer);
    assert forall o :: o in Objs(saved) <==> o in l.cols by {
      forall o ensures o in Objs(saved) <==> o in l.cols {
        if o in l.cols {
          var k :| 0 <= k < |l.cols| && l.cols[k] == o;
          assert saved[k].obj == o;
        }
      }
    }
  }

  /** Picking up and dropping again puts every layer back and leaves the
      object free and falling, whatever its flags were before. */
  lemma PickUpDropRoundTrip(l: Lift, layers: seq<int>, holder: Option<Id>, layer: int)
    requires Valid(l, layers) && !l.isLift
    ensures var h := PickUp(l, layers, holder, layer); var d := Drop(h.lift, h.layers);
      && d.layers == layers && !d.lift.isLift && d.lift.holder.None?
      && d.lift.gravity && d.lift.interp == NoInterpolation
  {
    LayerRoundTrip(layers, l.cols, layer);
  }

  /** A second `PickUp` or `Drop` changes nothing. */
  lemma PickUpDropIdempotent(l: Lift, layers: seq<int>, holder: Option<Id>, layer: int, other: Option<Id>, layer2: int)
    requires Valid(l, layers)
    ensures var h := PickUp(l, layers, holder, layer); PickUp(h.lift, h.layers, other, layer2) == h
    ensures var d := Drop(l, layers); Drop(d.lift, d.layers) == d
  {
  }
}

=== FILE: names.dfy ===
/** The names `PhysicCable` gives the children it generates
    (Assets/PhysicCalbes/Scripts/PhysicCable.cs, `ConnectorName`,
    `PointName` and the `cloneText` prefix).  An index is written the way C#
    interpolates a non-negative `int`: plain decimal digits. */
module Naming {

  /** The prefix every generated child carries (`cloneText`). */
  const CloneText: string := "Part"

  predicate StartsWith(s: string, prefix: string) {
    |prefix| <= |s| && s[..|prefix|] == prefix
  }

  predicate IsDigit(c: char) {
    '0' <= c <= '9'
  }

  function DigitChar(d: nat): (c: char)
    requires d < 10
    ensures IsDigit(c)
  {
    (48 + d) as char
  }

  /** Decimal digits of `n`, most significant first. */
  function NatToString(n: nat): (r: string)
    ensures |r| >= 1 && (n >= 10 <==> |r| >= 2)
    ensures forall i | 0 <= i < |r| :: IsDigit(r[i])
    ensures r[|r| - 1] == DigitChar(n % 10)
  {
    if n < 10 then [DigitChar(n)] else NatToString(n / 10) + [DigitChar(n % 10)]
  }

  /** Different numbers are written differently. */
  lemma {:induction false} NatToStringInjective(n: nat, m: nat)
    requires NatToString(n) == NatToString(m)
    ensures n == m
  {
    var r := NatToString(n);
    assert (48 + n % 10) as char == (48 + m % 10) as char;
    if n >= 10 {
      var k := |r| - 1;
      assert NatToString(n / 10) == r[..k] == NatToString(m / 10);
      NatToStringInjective(n / 10, m / 10);
    }
  }

  function ConnectorName(i: nat): string {
    CloneText + "_" + NatToString(i) + "_Conn"
  }

  function PointName(i: nat): string {
    CloneText + "_" + NatToString(i) + "_Point"
  }

  /** `prefix + x + suffix` determines `x`. */
  lemma FramedInjective(prefix: string, x: string, y: string, suffix: string)
    requires prefix + x + suffix == prefix + y + suffix
    ensures x == y
  {
    var w := prefix + x + suffix;
    assert |x| == |y|;
    assert x == w[|prefix|..|prefix| + |x|];
    assert y == w[|prefix|..|prefix| + |y|];
  }

  /** The generated names are distinct per index and per kind, and each one
      starts with `cloneText`, so the clean-up of `UpdatePoints` finds it. */
  lemma NamesDistinct(i: nat, j: nat)
    ensures PointName(i) == PointName(j) <==> i == j
    ensures ConnectorName(i) == ConnectorName(j) <==> i == j
    ensures PointName(i) != ConnectorName(j)
    ensures StartsWith(PointName(i), CloneText) && StartsWith(ConnectorName(i), CloneText)
  {
    if PointName(i) == PointName(j) {
      FramedInjective(CloneText + "_", NatToString(i), NatToString(j), "_Point");
      NatToStringInjective(i, j);
    }
    if ConnectorName(i) == ConnectorName(j) {
      FramedInjective(CloneText + "_", NatToString(i), NatToString(j), "_Conn");
      NatToStringInjective(i, j);
    }
    var p := PointName(i);
    var c := ConnectorName(j);
    assert p[|p| - 1] == 't' && c[|c| - 1] == 'n';
    assert p[..|CloneText|] == CloneText;
    assert ConnectorName(i)[..|CloneText|] == CloneText;
  }
}

=== FILE: player.dfy ===
/** The object holder of the sample player
    (Assets/SamplePlayerController/Scripts/PlayerInteractions.cs): edge
    detection on the interaction button, the selection under the cursor,
    and picking up and dropping `Liftable`s.

    The mouse button and the interactable under the cursor are inputs of a
    frame; interactables are scene ids, and an interactable that is also a
    `Liftable` has an entry in the `lifts` column. */
module PlayerInteractions {
  import opened Base
  import Interactable
  import Liftable

  datatype Player = Player(
    self: Id,                  // this holder, as recorded by a pick-up
    selected: Option<Id>,      // SelectedObject
    held: Option<Id>,          // HeldObject
    interacting: bool,         // Interacting
    heldLayer: int)            // heldObjectLayer

  datatype Scene = Scene(
    items: seq<Interactable.Item>,
    enabled: seq<bool>,
    lifts: seq<Option<Liftable.Lift>>,
    layers: seq<int>)

  ghost predicate Valid(p: Player, sc: Scene) {
    && |sc.items| == |sc.enabled| == |sc.lifts|
    && (forall i | 0 <= i < |sc.lifts| && sc.lifts[i].Some? :: Liftable.Valid(sc.lifts[i].value, sc.layers))
    && (p.selected.Some? ==> p.selected.value < |sc.items|)
    && (p.held.Some? ==> p.held.value < |sc.items| && sc.lifts[p.held.value].Some?)
  }

  datatype Event = OnSelect | OnDeselect | OnInteractionStart | OnInteractionEnd

  // ---------------------------------------------------------------------
  // Input

  datatype Input = Input(interacting: bool, events: seq<Event>)

  /** `UpdateInput`: an event only when the button changes. */
  function UpdateInput(interacting: bool, button: bool): (r: Input)
    ensures r.interacting == button
    ensures |r.events| == if interacting == button then 0 else 1
    ensures |r.events| == 1 ==> r.events[0] == if button then OnInteractionStart else OnInteractionEnd
  {
    if button != interacting then Input(button, if button then [OnInteractionStart] else [OnInteractionEnd])
    else Input(interacting, [])
  }

  /** The input events of successive frames. */
  function InputRun(interacting: bool, buttons: seq<bool>): (r: Input)
    decreases |buttons|
  {
    if buttons == [] then Input(interacting, [])
    else
      var first := UpdateInput(interacting, buttons[0]);
      var rest := InputRun(first.interacting, buttons[1..]);
      Input(rest.interacting, first.events + rest.events)
  }

  /** The `k`-th edge a button starting at `interacting` can produce. */
  function Edge(interacting: bool, k: nat): Event
    decreases k
  {
    if k == 0 then (if interacting then OnInteractionEnd else OnInteractionStart)
    else Edge(!interacting, k - 1)
  }

  /** Over any run of frames the events alternate, starting with the one
      the initial state allows. */
  lemma {:induction false} InputEventsAlternate(interacting: bool, buttons: seq<bool>)
    ensures var r := InputRun(interacting, buttons);
      forall k | 0 <= k < |r.events| :: r.events[k] == Edge(interacting, k)
    decreases |buttons|
  {
    if buttons != [] {
      var first := UpdateInput(interacting, buttons[0]);
      var rest := InputRun(first.interacting, buttons[1..]);
      InputEventsAlternate(first.interacting, buttons[1..]);
      var events := first.events + rest.events;
      forall k | 0 <= k < |events| ensures events[k] == Edge(interacting, k) {
        if |first.events| == 1 && k > 0 {
          assert events[k] == rest.events[k - 1];
        }
      }
    }
  }

  /** The flag agrees with the last event of a run, or is unchanged when
      there was none. */
  lemma {:induction false} InputFlagMatchesLastEvent(interacting: bool, buttons: seq<bool>)
    ensures var r := InputRun(interacting, buttons);
      && (r.events == [] ==> r.interacting == interacting)
      && (r.events != [] ==> (r.interacting <==> r.events[|r.events| - 1] == OnInteractionStart))
    decreases |buttons|
  {
    if buttons != [] {
      var first := UpdateInput(interacting, buttons[0]);
      var rest := InputRun(first.interacting, buttons[1..]);
      InputFlagMatchesLastEvent(first.interacting, buttons[1..]);
      var events := first.events + rest.events;
      if rest.events != [] {
        assert events[|events| - 1] == rest.events[|rest.events| - 1];
      }
    }
  }

  /** After a run the flag is the last sample of the button. */
  lemma {:induction false} InputFollowsButton(interacting: bool, buttons: seq<bool>)
    requires buttons != []
    ensures InputRun(interacting, buttons).interacting == buttons[|buttons| - 1]
    decreases |buttons|
  {
    if |buttons| > 1 {
      InputFollowsButton(UpdateInput(interacting, buttons[0]).interacting, buttons[1..]);
    }
  }

  // ---------------------------------------------------------------------
  // Selection

  datatype Selection = Selection(player: Player, items: seq<Interactable.Item>, events: seq<Event>)

  /** `UpdateSelectedObject` with `found` the interactable under the
      cursor: nothing when it is the current selection; otherwise the old
      selection is deselected, the new one recorded (even when disabled)
      and selected only when enabled. */
  function UpdateSelectedObject(p: Player, sc: Scene, found: Option<Id>): (r: Selection)
    requires Valid(p, sc) && (found.Some? ==> found.value < |sc.items|)
    ensures |r.items| == |sc.items| && r.player == p.(selected := found)
    ensures p.selected == found ==> r == Selection(p, sc.items, [])
    ensures p.selected != found ==>
      r.events == (if p.selected.Some? then [OnDeselect] else []) + (if found.Some? && sc.enabled[found.value] then [OnSelect] else [])
    ensures p.selected != found ==>
      forall i | 0 <= i < |sc.items| ::
        r.items[i] == if found == Some(i) && sc.enabled[i] then Interactable.Select(sc.items[i])
                      else if p.selected == Some(i) then Interactable.Deselect(sc.items[i])
                      else sc.items[i]
  {
    if p.selected == found then Selection(p, sc.items, [])
    else
      var items1 := if p.selected.Some? then sc.items[p.selected.value := Interactable.Deselect(sc.items[p.selected.value])] else sc.items;
      var ev1 := if p.selected.Some? then [OnDeselect] else [];
      if found.Some? && sc.enabled[found.value] then
        Selection(p.(selected := found), items1[found.value := Interactable.Select(items1[found.value])], ev1 + [OnSelect])
      else Selection(p.(selected := found), items1, ev1)
  }

  /** Only the player's selection can be marked selected. */
  ghost predicate OnlySelectionMarked(p: Player, items: seq<Interactable.Item>) {
    forall i | 0 <= i < |items| && items[i].isSelected :: p.selected == Some(i)
  }

  /** Selection keeps that invariant, and a newly found enabled
      interactable is marked selected. */
  lemma SelectionKeepsMarks(p: Player, sc: Scene, found: Option<Id>)
    requires Valid(p, sc) && (found.Some? ==> found.value < |sc.items|)
    requires OnlySelectionMarked(p, sc.items)
    ensures var r := UpdateSelectedObject(p, sc, found);
      && OnlySelectionMarked(r.player, r.items)
      && (p.selected != found && found.Some? ==> (r.items[found.value].isSelected <==> sc.enabled[found.value]))
  {
  }

  // ---------------------------------------------------------------------
  // Holding

  datatype Hold = Hold(player: Player, scene: Scene)

  /** `PickUpObject(obj)`: a null object only warns; otherwise it becomes
      the held object and is picked up with this holder and the held layer. */
  function PickUpObject(p: Player, sc: Scene, obj: Option<Id>): (r: Hold)
    requires Valid(p, sc) && (obj.Some? ==> obj.value < |sc.lifts| && sc.lifts[obj.value].Some?)
    ensures Valid(r.player, r.scene)
    ensures obj.None? ==> r == Hold(p, sc)
    ensures obj.Some? ==> r.player == p.(held := obj)
    ensures obj.Some? ==>
      var h := Liftable.PickUp(sc.lifts[obj.value].value, sc.layers, Some(p.self), p.heldLayer);
      r.scene == sc.(lifts := sc.lifts[obj.value := Some(h.lift)], layers := h.layers)
  {
    if obj.None? then Hold(p, sc)
    else
      var h := Liftable.PickUp(sc.lifts[obj.value].value, sc.layers, Some(p.self), p.heldLayer);
      Hold(p.(held := obj), sc.(lifts := sc.lifts[obj.value := Some(h.lift)], layers := h.layers))
  }

  /** `DropObject(obj)`: a null object only warns; otherwise nothing is
      held any more and the object is dropped. */
  function DropObject(p: Player, sc: Scene, obj: Option<Id>): (r: Hold)
    requires Valid(p, sc) && (obj.Some? ==> obj.value < |sc.lifts| && sc.lifts[obj.value].Some?)
    ensures Valid(r.player, r.scene)
    ensures obj.None? ==> r == Hold(p, sc)
    ensures obj.Some? ==> r.player == p.(held := None)
    ensures obj.Some? ==>
      var d := Liftable.Drop(sc.lifts[obj.value].value, sc.layers);
      r.scene == sc.(lifts := sc.lifts[obj.value := Some(d.lift)], layers := d.layers)
  {
    if obj.None? then Hold(p, sc)
    else
      var d := Liftable.Drop(sc.lifts[obj.value].value, sc.layers);
      Hold(p.(held := None), sc.(lifts := sc.lifts[obj.value := Some(d.lift)], layers := d.layers))
  }

  /** The selection, when it is a `Liftable`. */
  function SelectedLiftable(p: Player, sc: Scene): (r: Option<Id>)
    requires Valid(p, sc)
    ensures r.Some? <==> p.selected.Some? && sc.lifts[p.selected.value].Some?
    ensures r.Some? ==> r == p.selected
  {
    if p.selected.Some? && sc.lifts[p.selected.value].Some? then p.selected else None
  }

  /** `ChangeHeldObject`, run on every interaction start: drop what is
      held, or else pick up the selection when it is a `Liftable`. */
  function ChangeHeldObject(p: Player, sc: Scene): (r: Hold)
    requires Valid(p, sc)
    ensures Valid(r.player, r.scene)
    ensures p.held.Some? ==> r.player == p.(held := None)
    ensures p.held.Some? ==>
      var d := Liftable.Drop(sc.lifts[p.held.value].value, sc.layers);
      r.scene == sc.(lifts := sc.lifts[p.held.value := Some(d.lift)], layers := d.layers)
    ensures p.held.None? ==> r.player == p.(held := SelectedLiftable(p, sc))
    ensures p.held.None? && p.selected.Some? && sc.lifts[p.selected.value].Some? ==>
      var o := p.selected.value;
      var h := Liftable.PickUp(sc.lifts[o].value, sc.layers, Some(p.self), p.heldLayer);
      r.scene == sc.(lifts := sc.lifts[o := Some(h.lift)], layers := h.layers)
    ensures p.held.None? && SelectedLiftable(p, sc).None? ==> r == Hold(p, sc)
  {
    if p.held.Some? then DropObject(p, sc, p.held)
    else if SelectedLiftable(p, sc).Some? then PickUpObject(p, sc, SelectedLiftable(p, sc))
    else Hold(p, sc)
  }

  /** `CheckHeldObjectOnTeleport`: a teleport drops whatever is held. */
  function Teleport(p: Player, sc: Scene): (r: Hold)
    requires Valid(p, sc)
    ensures Valid(r.player, r.scene) && r.player == p.(held := None)
    ensures p.held.None? ==> r == Hold(p, sc)
    ensures p.held.Some? ==>
      var d := Liftable.Drop(sc.lifts[p.held.value].value, sc.layers);
      && !d.lift.isLift
      && r.scene == sc.(lifts := sc.lifts[p.held.value := Some(d.lift)], layers := d.layers)
  {
    if p.held.Some? then DropObject(p, sc, p.held) else Hold(p, sc)
  }

  /** The held object is lifted, and lifted by this player. */
  ghost predicate HoldsLifted(p: Player, sc: Scene)
    requires Valid(p, sc)
  {
    p.held.Some? ==> sc.lifts[p.held.value].value.isLift && sc.lifts[p.held.value].value.holder == Some(p.self)
  }

  /** Two interaction starts with a free `Liftable` selected pick it up
      and drop it again: nothing is held, every layer is back, and the
      object is free and falling. */
  lemma ChangeHeldTwiceRoundTrip(p: Player, sc: Scene)
    requires Valid(p, sc) && p.held.None? && SelectedLiftable(p, sc).Some?
    requires !sc.lifts[p.selected.value].value.isLift
    ensures var h1 := ChangeHeldObject(p, sc);
      && HoldsLifted(h1.player, h1.scene)
      && var h2 := ChangeHeldObject(h1.player, h1.scene);
      && h2.player == p && h2.scene.layers == sc.layers
      && var l := h2.scene.lifts[p.selected.value].value;
      && !l.isLift && l.holder.None? && l.gravity && l.interp == Liftable.NoInterpolation
  {
    var o := p.selected.value;
    Liftable.PickUpDropRoundTrip(sc.lifts[o].value, sc.layers, Some(p.self), p.heldLayer);
  }

  /** A teleport right after an interaction start lifted a free `Liftable`
      puts every layer back and leaves the object free and falling. */
  lemma PickUpTeleportRoundTrip(p: Player, sc: Scene)
    requires Valid(p, sc) && p.held.None? && SelectedLiftable(p, sc).Some?
    requires !sc.lifts[p.selected.value].value.isLift
    ensures var h1 := ChangeHeldObject(p, sc);
      && HoldsLifted(h1.player, h1.scene)
      && var t := Teleport(h1.player, h1.scene);
      && t.player == p && t.scene.layers == sc.layers
      && var l := t.scene.lifts[p.selected.value].value;
      && !l.isLift && l.holder.None? && l.gravity && l.interp == Liftable.NoInterpolation
  {
    var o := p.selected.value;
    Liftable.PickUpDropRoundTrip(sc.lifts[o].value, sc.layers, Some(p.self), p.heldLayer);
  }

  /** Picking up a `Liftable` another holder already lifted records it as
      held although its own pick-up was ignored: the held object is then
      not lifted by this player. */
  lemma PickUpOfLiftedObjectIsNotOwned(p: Player, sc: Scene)
    requires Valid(p, sc) && p.held.None? && SelectedLiftable(p, sc).Some?
    requires sc.lifts[p.selected.value].value.isLift && sc.lifts[p.selected.value].value.holder != Some(p.self)
    ensures var h := ChangeHeldObject(p, sc); h.player.held == p.selected && !HoldsLifted(h.player, h.scene)
  {
  }

  // ---------------------------------------------------------------------
  // A frame

  datatype Frame = Frame(player: Player, scene: Scene, events: seq<Event>)

  /** `Update` without the held object's motion: input (an interaction
      start runs `ChangeHeldObject` at once), then the selection. */
  function Update(p: Player, sc: Scene, button: bool, found: Option<Id>): (r: Frame)
    requires Valid(p, sc) && (found.Some? ==> found.value < |sc.items|)
    ensures Valid(r.player, r.scene) && r.player.selected == found && r.player.interacting == button
    ensures !(button && !p.interacting) ==>
      r.player.held == p.held && r.scene.lifts == sc.lifts && r.scene.layers == sc.layers
    ensures button && !p.interacting ==>
      var h := ChangeHeldObject(p.(interacting := true), sc);
      r.player.held == h.player.held && r.scene.lifts == h.scene.lifts && r.scene.layers == h.scene.layers
    ensures r.scene.enabled == sc.enabled && |r.scene.items| == |sc.items|
  {
    var inp := UpdateInput(p.interacting, button);
    var p1 := p.(interacting := inp.interacting);
    var h := if inp.events == [OnInteractionStart] then ChangeHeldObject(p1, sc) else Hold(p1, sc);
    var sel := UpdateSelectedObject(h.player, h.scene, found);
    Frame(sel.player, h.scene.(items := sel.items), inp.events + sel.events)
  }

  /** Press, release, press, with a free `Liftable` under the cursor the
      whole time: the first frame lifts it by this player, the third drops
      it, and then nothing is held, every layer is back, and the object is
      free and falling. */
  lemma UpdatePressTwiceRoundTrip(p: Player, sc: Scene)
    requires Valid(p, sc) && !p.interacting && p.held.None? && SelectedLiftable(p, sc).Some?
    requires !sc.lifts[p.selected.value].value.isLift
    ensures var f1 := Update(p, sc, true, p.selected);
      && f1.player.held == p.selected && HoldsLifted(f1.player, f1.scene)
      && var f2 := Update(f1.player, f1.scene, false, p.selected);
      && var f3 := Update(f2.player, f2.scene, true, p.selected);
      && f3.player.held.None? && f3.scene.layers == sc.layers
      && var l := f3.scene.lifts[p.selected.value].value;
      && !l.isLift && l.holder.None? && l.gravity && l.interp == Liftable.NoInterpolation
  {
    var p1 := p.(interacting := true);
    ChangeHeldTwiceRoundTrip(p1, sc);
    var f1 := Update(p, sc, true, p.selected);
    var h1 := ChangeHeldObject(p1, sc);
    assert f1.player == h1.player && f1.scene.lifts == h1.scene.lifts && f1.scene.layers == h1.scene.layers;
    var f2 := Update(f1.player, f1.scene, false, p.selected);
    assert f2.player == h1.player.(interacting := false);
    var h2 := ChangeHeldObject(h1.player, h1.scene);
    var g2 := ChangeHeldObject(f2.player.(interacting := true), f2.scene);
    assert g2.player.held == h2.player.held && g2.scene.lifts == h2.scene.lifts && g2.scene.layers == h2.scene.layers;
  }
}

=== FILE: scripts_cable_end.dfy ===
/** The liftable cable end of the root copy (Scripts/PhysicCableCon.cs).
    Compared with the HPhysic copy it drops first and decides afterwards,
    asks the player for the selection, plays sounds, and while it is held
    drags the neighbouring cable point along with it. */
module ScriptsCableEnd {
  import opened Base
  import ScriptsLiftable
  import ScriptsConnector

  datatype End = End(lift: ScriptsLiftable.Lift, conn: Id)

  datatype World = World(store: ScriptsConnector.Store, layers: seq<int>)

  ghost predicate Valid(e: End, w: World) {
    ScriptsConnector.Valid(w.store) && e.conn < |w.store.link| && ScriptsLiftable.Valid(e.lift, w.layers)
  }

  /** The cable an end belongs to, as `PhysicCable` exposes it: the point
      list (null entries allowed) and its two end connectors. */
  datatype Cable = Cable(points: seq<Option<Id>>, start: Id, end: Id)

  /** The cable points' rigidbodies and positions, by point id; a position
      is taken along the line from the point to the end that drags it. */
  datatype Rig = Rig(bodies: seq<Body>, pos: seq<real>)

  /** Every listed point has a body and a position. */
  ghost predicate RigValid(c: Cable, g: Rig) {
    && |c.points| >= 2 && |g.bodies| == |g.pos|
    && forall i | 0 <= i < |c.points| && c.points[i].Some? :: c.points[i].value < |g.bodies|
  }

  /** The result of `PickUp`: the lift state, the connectors, the cues, the
      cable points, and the point the follow coroutine drags. */
  datatype Moved = Moved(lift: ScriptsLiftable.Lift, world: World, cues: seq<ScriptsConnector.Cue>, rig: Rig, dragged: Option<Id>)

  /** `PickUp(layer)`: the base pick-up, then `Disconnect(true)` when the
      connector is plugged in, then the part of the follow coroutine that
      `StartCoroutine` runs before its first `yield`: the neighbour is looked
      up, made kinematic, loses its spring to the end, and takes one step
      of the follow loop (the end is lifted now, so the loop is entered).
      `endPos` is the end's position and `dt` the frame time. */
  function PickUp(e: End, w: World, layer: int, cable: Cable, rig: Rig, endPos: real, dt: real): (r: Moved)
    requires Valid(e, w) && RigValid(cable, rig)
    ensures Valid(End(r.lift, e.conn), r.world) && |r.world.store.link| == |w.store.link|
    ensures r.lift == ScriptsLiftable.PickUp(e.lift, w.layers, layer).lift && r.lift.isLift
    ensures r.world.layers == ScriptsLiftable.PickUp(e.lift, w.layers, layer).layers
    ensures !ScriptsConnector.IsConnected(w.store, e.conn) ==> r.world.store == w.store && r.cues == []
    ensures r.dragged == Neighbour(cable.points, e.conn, cable.start, cable.end)
    ensures |r.rig.bodies| == |rig.bodies| && |r.rig.pos| == |rig.pos|
    ensures r.dragged.None? ==> r.rig == rig
    ensures r.dragged.Some? ==>
      var p := r.dragged.value;
      && p < |rig.bodies|
      && (forall q | 0 <= q < |rig.bodies| && q != p :: r.rig.bodies[q] == rig.bodies[q] && r.rig.pos[q] == rig.pos[q])
      && r.rig.bodies[p].kinematic
      && multiset(r.rig.bodies[p].springs)[e.conn]
           == (if e.conn in rig.bodies[p].springs then multiset(rig.bodies[p].springs)[e.conn] - 1 else 0)
      && (forall y | y != e.conn :: multiset(r.rig.bodies[p].springs)[y] == multiset(rig.bodies[p].springs)[y])
      && (rig.pos[p] <= endPos ==> rig.pos[p] <= r.rig.pos[p] <= endPos)
      && (endPos <= rig.pos[p] ==> endPos <= r.rig.pos[p] <= rig.pos[p])
  {
    var h := ScriptsLiftable.PickUp(e.lift, w.layers, layer);
    var d := if ScriptsConnector.IsConnected(w.store, e.conn) then ScriptsConnector.Disconnect(w.store, e.conn, true, None)
             else ScriptsConnector.Unlink(w.store, [], 1);
    var n := Neighbour(cable.points, e.conn, cable.start, cable.end);
    var g := if n.None? then rig
             else
               var p := n.value;
               Rig(rig.bodies[p := BeginFollow(rig.bodies[p], e.conn)], rig.pos[p := FollowStep(rig.pos[p], endPos, dt)]);
    Moved(h.lift, World(d.store, h.layers), d.cues, g, n)
  }

  /** Picking up a plugged end unplugs both sides of the pair, and both
      sides play their connect sound when they have one. */
  lemma PickUpUnplugsWithSound(e: End, w: World, layer: int, cable: Cable, rig: Rig, endPos: real, dt: real)
    requires Valid(e, w) && RigValid(cable, rig) && ScriptsConnector.Symmetric(w.store)
    ensures var r := PickUp(e, w, layer, cable, rig, endPos, dt);
      && !ScriptsConnector.IsConnected(r.world.store, e.conn)
      && ScriptsConnector.Symmetric(r.world.store)
    ensures var b := w.store.link[e.conn]; var r := PickUp(e, w, layer, cable, rig, endPos, dt);
      b.Some? && b.value != e.conn ==>
        && !ScriptsConnector.IsConnected(r.world.store, b.value)
        && r.cues == ScriptsConnector.ConnectCue(w.store, b.value, true) + ScriptsConnector.ConnectCue(w.store, e.conn, true)
  {
    if ScriptsConnector.IsConnected(w.store, e.conn) {
      ScriptsConnector.DisconnectClearsSelf(w.store, e.conn, true, None);
      ScriptsConnector.DisconnectPreservesSymmetry(w.store, e.conn, true, None);
      var b := w.store.link[e.conn].value;
      if b != e.conn {
        ScriptsConnector.DisconnectPair(w.store, e.conn, b, true, None);
        ScriptsConnector.DisconnectPairSteps(w.store, e.conn, b, true, None);
      }
    }
  }

  datatype Outcome = Plugged | Snapped | Stayed

  datatype Dropped = Dropped(lift: ScriptsLiftable.Lift, world: World, outcome: Outcome, cues: seq<ScriptsConnector.Cue>)

  /** `Drop`: the base drop first, then the decision on the player's
      selected connector (`selected`), with the sound on.  The decision is
      taken even when the base drop was ignored. */
  function Drop(e: End, w: World, selected: Option<Id>): (r: Dropped)
    requires Valid(e, w)
    requires selected.Some? ==> selected.value < |w.store.link|
    ensures r.lift == ScriptsLiftable.Drop(e.lift, w.layers).lift && !r.lift.isLift
    ensures r.world.layers == ScriptsLiftable.Drop(e.lift, w.layers).layers
    ensures Valid(End(r.lift, e.conn), r.world)
    ensures r.outcome == Plugged <==> selected.Some? && ScriptsConnector.CanConnect(w.store, e.conn, selected.value)
    ensures r.outcome == Snapped <==>
      selected.Some? && !ScriptsConnector.CanConnect(w.store, e.conn, selected.value)
      && !ScriptsConnector.IsConnected(w.store, selected.value)
    ensures r.outcome != Plugged ==> r.world.store == w.store && r.cues == []
  {
    var h := ScriptsLiftable.Drop(e.lift, w.layers);
    if selected.None? then Dropped(h.lift, World(w.store, h.layers), Stayed, [])
    else
      var c := selected.value;
      if ScriptsConnector.CanConnect(w.store, e.conn, c) then
        var st := ScriptsConnector.Connect(w.store, c, Some(e.conn), true);
        Dropped(h.lift, World(st.store, h.layers), Plugged, st.cues)
      else if !ScriptsConnector.IsConnected(w.store, c) then Dropped(h.lift, World(w.store, h.layers), Snapped, [])
      else Dropped(h.lift, World(w.store, h.layers), Stayed, [])
  }

  /** A link made on drop joins the end and the selected connector both
      ways, keeps every link two-sided, and sounds the selected connector. */
  lemma DropPlugs(e: End, w: World, selected: Option<Id>)
    requires Valid(e, w) && ScriptsConnector.Symmetric(w.store)
    requires selected.Some? ==> selected.value < |w.store.link|
    ensures var r := Drop(e, w, selected);
      && ScriptsConnector.Symmetric(r.world.store)
      && (r.outcome == Plugged ==>
            && r.world.store.link[e.conn] == selected
            && r.world.store.link[selected.value] == Some(e.conn)
            && r.world.store.joint[selected.value] == Some(e.conn)
            && ScriptsConnector.ConnectCue(w.store, selected.value, true) <= r.cues)
  {
    if selected.Some? && ScriptsConnector.CanConnect(w.store, e.conn, selected.value) {
      var c := selected.value;
      ScriptsConnector.CanConnectGates(w.store, e.conn, c);
      ScriptsConnector.ConnectPreservesSymmetry(w.store, c, e.conn, true);
      ScriptsConnector.ConnectFree(w.store, c, e.conn, true);
    }
  }

  // ---------------------------------------------------------------------
  // Dragging the neighbouring point

  /** The point the end drags: the second entry of the cable's point list
      for the start connector, the second-to-last for the end connector;
      none for any other connector or when that entry is null.  The list
      `Start` builds always has at least three entries. */
  function Neighbour(points: seq<Option<Id>>, conn: Id, start: Id, end: Id): (r: Option<Id>)
    requires |points| >= 2
    ensures r.Some? ==> (conn == start && points[1] == r) || (conn != start && conn == end && points[|points| - 2] == r)
    ensures conn != start && conn != end ==> r.None?
  {
    if conn == start then points[1]
    else if conn == end then points[|points| - 2]
    else None
  }

  /** The rigidbody of a cable point: its kinematic flag and the bodies its
      spring joints pull on, in component order. */
  datatype Body = Body(kinematic: bool, springs: seq<Id>)

  /** Without the last spring joint that pulls on `x`: the search loop keeps
      the last match, and only that one is destroyed. */
  function RemoveLast(springs: seq<Id>, x: Id): (r: seq<Id>)
    ensures x in springs ==> multiset(r) == multiset(springs) - multiset{x}
    ensures x !in springs ==> r == springs
  {
    if springs == [] then []
    else
      var init := springs[..|springs| - 1];
      var last := springs[|springs| - 1];
      assert springs == init + [last];
      if last == x then init else RemoveLast(init, x) + [last]
  }

  /** The start of the follow phase: the neighbour becomes kinematic and
      its spring to the end is destroyed. */
  function BeginFollow(b: Body, self: Id): (r: Body)
    ensures r.kinematic
    ensures multiset(r.springs)[self] == if self in b.springs then multiset(b.springs)[self] - 1 else 0
    ensures forall y | y != self :: multiset(r.springs)[y] == multiset(b.springs)[y]
  {
    Body(true, RemoveLast(b.springs, self))
  }

  /** The end of the follow phase, once the end is no longer lifted: the
      neighbour is dynamic again and gets one new spring to the end. */
  function EndFollow(b: Body, self: Id): (r: Body)
    ensures !r.kinematic
    ensures multiset(r.springs) == multiset(b.springs) + multiset{self}
  {
    Body(false, b.springs + [self])
  }

  /** A whole follow phase leaves the neighbour dynamic with at least one
      spring to the end (exactly one when it had at most one), and its other
      springs as they were. */
  lemma FollowPhaseRestoresSpring(b: Body, self: Id)
    ensures var r := EndFollow(BeginFollow(b, self), self);
      && !r.kinematic
      && multiset(r.springs)[self] == (if self in b.springs then multiset(b.springs)[self] else 1)
      && forall y | y != self :: multiset(r.springs)[y] == multiset(b.springs)[y]
  {
  }

  function Clamp01(x: real): (r: real)
    ensures 0.0 <= r <= 1.0
    ensures 0.0 <= x <= 1.0 ==> r == x
  {
    if x < 0.0 then 0.0 else if x > 1.0 then 1.0 else x
  }

  /** One frame of the follow loop along the line from the neighbour to the
      end: the neighbour covers the fraction `clamp01(dt * 100)` of the gap. */
  function FollowStep(pos: real, target: real, dt: real): (r: real)
    ensures pos <= target ==> pos <= r <= target
    ensures target <= pos ==> target <= r <= pos
  {
    if pos != target then pos + Part(target - pos, Clamp01(dt * 100.0)) else pos
  }

  /** The fraction `f` of the gap `g`: between zero and the gap. */
  function Part(g: real, f: real): (r: real)
    requires 0.0 <= f <= 1.0
    ensures g >= 0.0 ==> 0.0 <= r <= g
    ensures g <= 0.0 ==> g <= r <= 0.0
  {
    var r := g * f;
    FractionOfGap(g, f);
    assert g >= 0.0 ==> 0.0 <= r <= g;
    assert g <= 0.0 ==> g <= r <= 0.0;
    r
  }

  lemma FractionOfGap(g: real, f: real)
    requires 0.0 <= f <= 1.0
    ensures g >= 0.0 ==> 0.0 <= g * f <= g
    ensures g <= 0.0 ==> g <= g * f <= 0.0
  {
    var a := if g >= 0.0 then g else -g;
    MulNonNeg(a, f);
    MulNonNeg(a, 1.0 - f);
    assert g - g * f == g * (1.0 - f);
  }

  lemma MulNonNeg(a: real, b: real)
    requires a >= 0.0 && b >= 0.0
    ensures a * b >= 0.0
  {
  }

  /** Frames of the follow loop while the end is held still at `target`:
      the neighbour approaches it monotonically and never overshoots. */
  method FollowStill(pos: real, target: real, dts: seq<real>) returns (r: real)
    ensures pos <= target ==> pos <= r <= target
    ensures target <= pos ==> target <= r <= pos
  {
    r := pos;
    var i := 0;
    while i < |dts|
      invariant 0 <= i <= |dts|
      invariant pos <= target ==> pos <= r <= target
      invariant target <= pos ==> target <= r <= pos
    {
      r := FollowStep(r, target, dts[i]);
      i := i + 1;
    }
  }
}

=== FILE: scripts_connector.dfy ===
/** The connector pairing state machine of the root copy
    (Scripts/Connector.cs).

    The store has the same columns as the HPhysic copy's, plus the
    highlight switch the hide policy also drives.  This copy announces
    itself: a `Disconnect` or `Connect` returns the audio and particle cues
    it issued, in order.  Its `Disconnect(bool playSound, Connector onlyThis)`
    is reached from `Connect` and from the reciprocal call with a
    `Connector` argument, which C# converts to `playSound = true` and leaves
    `onlyThis` null; the model binds the arguments the same way. */
module ScriptsConnector {
  import opened Base

  /** The serialized settings of a connector; no operation changes them. */
  datatype Config = Config(
    polarity: Polarity,
    color: CableColor,
    allowMismatch: bool,       // allowConnectDifrentCollor
    makeKinematic: bool,       // makeConnectionKinematic
    hideWhenConnected: bool,   // hideInteractableWhenIsConnected
    hasSparks: bool,           // sparksParticle is assigned
    hasConnectSound: bool,     // connectSound is assigned
    hasSparksSound: bool)      // sparksSound is assigned

  datatype Store = Store(
    cfg: seq<Config>,
    link: seq<Option<Id>>,     // ConnectedTo
    joint: seq<Option<Id>>,    // connectedBody of the joint this side owns
    wasKinematic: seq<bool>,   // partner's isKinematic saved at connect time
    kinematic: seq<bool>,      // isKinematic of the connector's own body
    collider: seq<bool>,       // the interactable collider is enabled
    highlight: seq<bool>,      // the HighlightableOnSelect component is enabled
    sparking: seq<bool>)       // the IncorrectSparks coroutine is alive

  /** What a connector makes the player hear or see. */
  datatype Cue =
    | ConnectSound(at: Id)     // AudioManager.PlaySFX(connectSound)
    | SparksPlay(at: Id)       // sparksParticle.Play()
    | SparksSound(at: Id)      // AudioManager.PlaySFX(sparksSound)

  /** Every column covers the same connectors and every reference stays inside. */
  ghost predicate Valid(s: Store) {
    && |s.cfg| == |s.link| == |s.joint| == |s.wasKinematic| == |s.kinematic|
       == |s.collider| == |s.highlight| == |s.sparking|
    && (forall i | 0 <= i < |s.link| && s.link[i].Some? :: s.link[i].value < |s.link|)
  }

  /** The core invariant: `a` is linked to `b` exactly when `b` is linked to `a`. */
  ghost predicate Symmetric(s: Store) {
    && Valid(s)
    && forall a, b | 0 <= a < |s.link| && 0 <= b < |s.link| && s.link[a] == Some(b) :: s.link[b] == Some(a)
  }

  predicate IsConnected(s: Store, a: Id)
    requires a < |s.link|
  {
    s.link[a].Some?
  }

  /** Connected, and to a connector of the same colour. */
  predicate IsConnectedRight(s: Store, a: Id)
    requires Valid(s) && a < |s.link|
  {
    IsConnected(s, a) && s.cfg[a].color == s.cfg[s.link[a].value].color
  }

  /** The gate every caller checks before `Connect`. */
  predicate CanConnect(s: Store, a: Id, b: Id)
    requires Valid(s) && a < |s.link| && b < |s.link|
  {
    && a != b
    && !IsConnected(s, a) && !IsConnected(s, b)
    && s.cfg[a].polarity != s.cfg[b].polarity
    && (s.cfg[a].allowMismatch || s.cfg[b].allowMismatch || s.cfg[a].color == s.cfg[b].color)
  }

  /** The hide policy, met by a connector whose connectedness is `connected`:
      both the highlight and the collider are on exactly when it is free. */
  predicate HideOk(c: Config, collider: bool, highlight: bool, connected: bool) {
    c.hideWhenConnected ==> collider == !connected && highlight == !connected
  }

  ghost predicate HideConsistent(s: Store)
    requires Valid(s)
  {
    forall a | 0 <= a < |s.link| :: HideOk(s.cfg[a], s.collider[a], s.highlight[a], s.link[a].Some?)
  }

  /** `UpdateInteractableWhenIsConnected` for connector `a`. */
  function Hide(s: Store, a: Id): (r: Store)
    requires Valid(s) && a < |s.link|
    ensures Valid(r) && r == s.(collider := r.collider, highlight := r.highlight)
    ensures r.collider == s.collider[a := r.collider[a]] && r.highlight == s.highlight[a := r.highlight[a]]
    ensures HideOk(s.cfg[a], r.collider[a], r.highlight[a], s.link[a].Some?)
    ensures !s.cfg[a].hideWhenConnected ==> r == s
  {
    if s.cfg[a].hideWhenConnected
    then s.(collider := s.collider[a := s.link[a].None?], highlight := s.highlight[a := s.link[a].None?])
    else s
  }

  /** The passive half of a connection: `self` records `second` as its
      partner, saves `second`'s kinematic flag and applies the hide policy. */
  function SetAsConnectedTo(s: Store, self: Id, second: Id): (r: Store)
    requires Valid(s) && self < |s.link| && second < |s.link|
    ensures Valid(r) && |r.link| == |s.link|
    ensures r == s.(link := s.link[self := Some(second)],
                    wasKinematic := s.wasKinematic[self := s.kinematic[second]],
                    collider := r.collider, highlight := r.highlight)
    ensures r.collider == s.collider[self := r.collider[self]] && r.highlight == s.highlight[self := r.highlight[self]]
    ensures HideOk(s.cfg[self], r.collider[self], r.highlight[self], true)
  {
    Hide(s.(link := s.link[self := Some(second)], wasKinematic := s.wasKinematic[self := s.kinematic[second]]), self)
  }

  /** The part of `Disconnect` before the reciprocal call: the joint is
      destroyed, the link cleared, and the partner's kinematic flag restored
      to the saved value when this side forced it. */
  function Release(s: Store, self: Id): (r: Store)
    requires Valid(s) && self < |s.link| && s.link[self].Some?
    ensures Valid(r)
    ensures r == s.(link := s.link[self := None], joint := s.joint[self := None], kinematic := r.kinematic)
    ensures r.kinematic == if s.cfg[self].makeKinematic then s.kinematic[s.link[self].value := s.wasKinematic[self]] else s.kinematic
    ensures LinkCount(r.link) < LinkCount(s.link)
  {
    LinkCountClear(s.link, self);
    var p := s.link[self].value;
    s.(link := s.link[self := None], joint := s.joint[self := None],
       kinematic := if s.cfg[self].makeKinematic then s.kinematic[p := s.wasKinematic[self]] else s.kinematic)
  }

  /** The connect sound of `a`, when asked for and assigned. */
  function ConnectCue(s: Store, a: Id, playSound: bool): (r: seq<Cue>)
    requires a < |s.cfg|
    ensures r == [] || r == [ConnectSound(a)]
    ensures r != [] <==> playSound && s.cfg[a].hasConnectSound
  {
    if playSound && s.cfg[a].hasConnectSound then [ConnectSound(a)] else []
  }

  /** Result of a `Disconnect` call: the new store, the cues issued, and how
      many activations of `Disconnect` the call made. */
  datatype Unlink = Unlink(store: Store, cues: seq<Cue>, calls: nat)

  /** `self.Disconnect(playSound, onlyThis)`: a no-op when not connected or
      when `onlyThis` names someone other than the partner; otherwise
      `Release`, then the partner's `Disconnect(this)` (so `playSound` true
      and no `onlyThis`), then the connect sound and the hide policy. */
  function Disconnect(s: Store, self: Id, playSound: bool, onlyThis: Option<Id>): (r: Unlink)
    requires Valid(s) && self < |s.link|
    ensures Valid(r.store) && |r.store.link| == |s.link| && r.store.cfg == s.cfg && r.calls >= 1
    ensures s.link[self].None? || (onlyThis.Some? && onlyThis != s.link[self]) ==> r == Unlink(s, [], 1)
    decreases LinkCount(s.link)
  {
    if s.link[self].None? || (onlyThis.Some? && onlyThis != s.link[self]) then Unlink(s, [], 1)
    else
      var s2 := Release(s, self);
      var inner := Disconnect(s2, s.link[self].value, true, None);
      Unlink(Hide(inner.store, self), inner.cues + ConnectCue(s, self, playSound), inner.calls + 1)
  }

  /** The part of `Connect` between the optional disconnect and the cues. */
  function Attach(s: Store, self: Id, o: Id): (r: Store)
    requires Valid(s) && self < |s.link| && o < |s.link|
    ensures Valid(r)
    ensures r.cfg == s.cfg && r.sparking == s.sparking
    ensures r.link == s.link[o := Some(self)][self := Some(o)]
    ensures r.joint == s.joint[self := Some(o)]
    ensures self != o ==>
      && r.wasKinematic == s.wasKinematic[o := s.kinematic[self]][self := s.kinematic[o]]
      && r.kinematic == s.kinematic[o := s.cfg[self].makeKinematic || s.kinematic[o]]
      && r.collider == s.collider[o := r.collider[o]]
      && r.highlight == s.highlight[o := r.highlight[o]]
      && HideOk(s.cfg[o], r.collider[o], r.highlight[o], true)
  {
    var s2 := s.(joint := s.joint[self := Some(o)]);
    var s3 := SetAsConnectedTo(s2, o, self);
    var s4 := s3.(wasKinematic := s3.wasKinematic[self := s3.kinematic[o]]);
    var s5 := if s.cfg[self].makeKinematic then s4.(kinematic := s4.kinematic[o := true]) else s4;
    s5.(link := s5.link[self := Some(o)])
  }

  /** A transition together with the cues it issued. */
  datatype Step = Step(store: Store, cues: seq<Cue>)

  /** The first, synchronous iteration of the `IncorrectSparks` coroutine. */
  function SparkCues(s: Store, a: Id): (r: seq<Cue>)
    requires a < |s.cfg|
    ensures r == if s.cfg[a].hasSparksSound then [SparksPlay(a), SparksSound(a)] else [SparksPlay(a)]
  {
    [SparksPlay(a)] + (if s.cfg[a].hasSparksSound then [SparksSound(a)] else [])
  }

  /** `Connect(secondConnector, playSound)`; `second == None` is the null
      argument.  An already connected `self` first disconnects from its
      partner, whoever that is.  The connect sound follows, then the first
      round of the mismatch loop when it starts, then the hide policy. */
  function Connect(s: Store, self: Id, second: Option<Id>, playSound: bool): (r: Step)
    requires Valid(s) && self < |s.link|
    requires second.Some? ==> second.value < |s.link|
    ensures second.None? ==> r == Step(s, [])
    ensures Valid(r.store) && |r.store.link| == |s.link| && r.store.cfg == s.cfg
    ensures second.Some? ==>
      && r.store.link[self] == second
      && r.store.link[second.value] == Some(self)
      && r.store.joint[self] == second
  {
    if second.None? then Step(s, [])
    else
      var o := second.value;
      var d := if IsConnected(s, self) then Disconnect(s, self, true, None) else Unlink(s, [], 1);
      var s6 := Attach(d.store, self, o);
      var startSparks := !s6.sparking[self] && s.cfg[self].hasSparks && !IsConnectedRight(s6, self);
      var sparks := if startSparks then SparkCues(s, self) else [];
      Step(Hide(s6.(sparking := s6.sparking[self := s6.sparking[self] || startSparks]), self),
           d.cues + (ConnectCue(s, self, playSound) + sparks))
  }

  /** `Start`: an authored link is re-made through a silent `Connect`. */
  function Start(s: Store, self: Id): (r: Step)
    requires Valid(s) && self < |s.link|
    ensures Valid(r.store) && |r.store.link| == |s.link|
    ensures s.link[self].None? ==> r == Step(s, [])
    ensures s.link[self].Some? ==> r.store.link[self] == s.link[self]
  {
    if s.link[self].None? then Step(s, [])
    else Connect(s.(link := s.link[self := None]), self, s.link[self], false)
  }

  /** `OnDisable`: `Disconnect(false)`. */
  function OnDisable(s: Store, self: Id): (r: Step)
    requires Valid(s) && self < |s.link|
    ensures Valid(r.store) && |r.store.link| == |s.link| && r.store.link[self].None?
  {
    DisconnectClearsSelf(s, self, false, None);
    var d := Disconnect(s, self, false, None);
    Step(d.store, d.cues)
  }

  /** One later wake-up of the mismatch loop: while it is alive and the link
      is still wrong the sparks play again, otherwise the loop ends. */
  function SparkTick(s: Store, self: Id): (r: Step)
    requires Valid(s) && self < |s.link|
    ensures Valid(r.store)
    ensures r.cues != [] <==> s.sparking[self] && s.cfg[self].hasSparks && IsConnected(s, self) && !IsConnectedRight(s, self)
    ensures r.cues != [] ==> r.store == s && r.cues[0] == SparksPlay(self)
    ensures r.cues == [] ==> r.store == s.(sparking := s.sparking[self := false])
  {
    if s.sparking[self] && s.cfg[self].hasSparks && IsConnected(s, self) && !IsConnectedRight(s, self)
    then Step(s, SparkCues(s, self))
    else Step(s.(sparking := s.sparking[self := false]), [])
  }

  /** After a disconnect the next wake-up of the mismatch loop issues no
      cue and ends the loop. */
  lemma MismatchLoopStopsAfterDisconnect(s: Store, a: Id)
    requires Valid(s) && a < |s.link|
    ensures var d := OnDisable(s, a).store;
      var t := SparkTick(d, a); t.cues == [] && !t.store.sparking[a]
  {
  }

  // ---------------------------------------------------------------------
  // CanConnect

  lemma CanConnectGates(s: Store, a: Id, b: Id)
    requires Valid(s) && a < |s.link| && b < |s.link|
    ensures !CanConnect(s, a, a)
    ensures s.cfg[a].polarity == s.cfg[b].polarity ==> !CanConnect(s, a, b)
    ensures IsConnected(s, a) || IsConnected(s, b) ==> !CanConnect(s, a, b)
    ensures a != b && !IsConnected(s, a) && !IsConnected(s, b) && s.cfg[a].polarity != s.cfg[b].polarity
            ==> (CanConnect(s, a, b) <==> s.cfg[a].allowMismatch || s.cfg[b].allowMismatch || s.cfg[a].color == s.cfg[b].color)
    ensures CanConnect(s, a, b) <==> CanConnect(s, b, a)
  {
  }

  // ---------------------------------------------------------------------
  // Disconnect

  /** Inside `Disconnect` no connector gains or changes a link. */
  lemma {:induction false} DisconnectOnlyClears(s: Store, self: Id, playSound: bool, onlyThis: Option<Id>)
    requires Valid(s) && self < |s.link|
    ensures var r := Disconnect(s, self, playSound, onlyThis).store;
      forall x | 0 <= x < |s.link| :: r.link[x] == s.link[x] || r.link[x].None?
    decreases LinkCount(s.link)
  {
    if s.link[self].None? || (onlyThis.Some? && onlyThis != s.link[self]) {
    } else {
      DisconnectOnlyClears(Release(s, self), s.link[self].value, true, None);
    }
  }

  /** A `Disconnect` the guard lets through leaves `self` free. */
  lemma {:induction false} DisconnectClearsSelf(s: Store, self: Id, playSound: bool, onlyThis: Option<Id>)
    requires Valid(s) && self < |s.link|
    requires onlyThis.None? || onlyThis == s.link[self]
    ensures Disconnect(s, self, playSound, onlyThis).store.link[self].None?
  {
    if s.link[self].Some? {
      DisconnectOnlyClears(Release(s, self), s.link[self].value, true, None);
    }
  }

  /** Every connector whose link `Disconnect` changed ends free and meets the
      hide policy; every other one keeps its collider and highlight. */
  lemma {:induction false} DisconnectHides(s: Store, self: Id, playSound: bool, onlyThis: Option<Id>)
    requires Valid(s) && self < |s.link|
    ensures var r := Disconnect(s, self, playSound, onlyThis).store;
      forall x | 0 <= x < |s.link| ::
        || (r.link[x] == s.link[x] && r.collider[x] == s.collider[x] && r.highlight[x] == s.highlight[x])
        || (r.link[x].None? && HideOk(s.cfg[x], r.collider[x], r.highlight[x], false))
    decreases LinkCount(s.link)
  {
    if s.link[self].None? || (onlyThis.Some? && onlyThis != s.link[self]) {
    } else {
      var s2 := Release(s, self);
      var inner := Disconnect(s2, s.link[self].value, true, None).store;
      DisconnectHides(s2, s.link[self].value, true, None);
      DisconnectOnlyClears(s2, s.link[self].value, true, None);
      var r := Hide(inner, self);
      forall x | 0 <= x < |s.link|
        ensures || (r.link[x] == s.link[x] && r.collider[x] == s.collider[x] && r.highlight[x] == s.highlight[x])
                || (r.link[x].None? && HideOk(s.cfg[x], r.collider[x], r.highlight[x], false))
      {
        if x != self {
          assert s2.link[x] == s.link[x] && s2.collider[x] == s.collider[x] && s2.highlight[x] == s.highlight[x];
          assert r.link[x] == inner.link[x] && r.collider[x] == inner.collider[x] && r.highlight[x] == inner.highlight[x];
        }
      }
    }
  }

  lemma DisconnectKeepsHideConsistent(s: Store, a: Id, playSound: bool, onlyThis: Option<Id>)
    requires Valid(s) && a < |s.link| && HideConsistent(s)
    ensures HideConsistent(Disconnect(s, a, playSound, onlyThis).store)
  {
    DisconnectHides(s, a, playSound, onlyThis);
  }

  /** Each proceeding activation clears one link, so a call makes at most
      one more activation than there are links. */
  lemma {:induction false} DisconnectCallsBounded(s: Store, self: Id, playSound: bool, onlyThis: Option<Id>)
    requires Valid(s) && self < |s.link|
    ensures Disconnect(s, self, playSound, onlyThis).calls <= LinkCount(s.link) + 1
    decreases LinkCount(s.link)
  {
    if s.link[self].None? || (onlyThis.Some? && onlyThis != s.link[self]) {
    } else {
      DisconnectCallsBounded(Release(s, self), s.link[self].value, true, None);
    }
  }

  /** The three activations of a pair disconnect, as a composition. */
  lemma DisconnectPairSteps(s: Store, a: Id, b: Id, playSound: bool, onlyThis: Option<Id>)
    requires Valid(s) && a < |s.link| && a != b && s.link[a] == Some(b)
    requires b < |s.link| && s.link[b] == Some(a)
    requires onlyThis.None? || onlyThis == Some(b)
    ensures var r := Disconnect(s, a, playSound, onlyThis);
      && r.store == Hide(Hide(Release(Release(s, a), b), b), a)
      && r.cues == ConnectCue(s, b, true) + ConnectCue(s, a, playSound)
      && r.calls == 3
  {
    var s2 := Release(s, a);
    var t2 := Release(s2, b);
    assert Disconnect(t2, a, true, None) == Unlink(t2, [], 1);
    assert Disconnect(s2, b, true, None) == Unlink(Hide(t2, b), [] + ConnectCue(s2, b, true), 2);
  }

  /** Disconnecting one side of a symmetric pair clears both sides, destroys
      both joints and restores the forced kinematic flags in three
      activations. */
  lemma DisconnectPair(s: Store, a: Id, b: Id, playSound: bool, onlyThis: Option<Id>)
    requires Valid(s) && a < |s.link| && a != b && s.link[a] == Some(b)
    requires b < |s.link| && s.link[b] == Some(a)
    requires onlyThis.None? || onlyThis == Some(b)
    ensures var r := Disconnect(s, a, playSound, onlyThis);
      && r.calls == 3
      && r.store.link == s.link[a := None][b := None]
      && r.store.joint == s.joint[a := None][b := None]
      && r.store.kinematic == s.kinematic
           [b := if s.cfg[a].makeKinematic then s.wasKinematic[a] else s.kinematic[b]]
           [a := if s.cfg[b].makeKinematic then s.wasKinematic[b] else s.kinematic[a]]
      && r.store.wasKinematic == s.wasKinematic && r.store.sparking == s.sparking
  {
    DisconnectPairSteps(s, a, b, playSound, onlyThis);
    ReleasePair(s, a, b);
  }

  /** The two `Release` steps of a pair disconnect, column by column. */
  lemma ReleasePair(s: Store, a: Id, b: Id)
    requires Valid(s) && a < |s.link| && a != b && s.link[a] == Some(b)
    requires b < |s.link| && s.link[b] == Some(a)
    ensures var t := Release(Release(s, a), b);
      && t.link == s.link[a := None][b := None]
      && t.joint == s.joint[a := None][b := None]
      && t.kinematic == s.kinematic
           [b := if s.cfg[a].makeKinematic then s.wasKinematic[a] else s.kinematic[b]]
           [a := if s.cfg[b].makeKinematic then s.wasKinematic[b] else s.kinematic[a]]
      && t.wasKinematic == s.wasKinematic && t.sparking == s.sparking
  {
  }

  /** The cues of a pair disconnect: the partner always plays its connect
      sound, because its reciprocal call has `playSound` bound to `this`;
      `self` plays its own only when asked. */
  lemma DisconnectPairCues(s: Store, a: Id, b: Id, playSound: bool, onlyThis: Option<Id>)
    requires Valid(s) && a < |s.link| && a != b && s.link[a] == Some(b)
    requires b < |s.link| && s.link[b] == Some(a)
    requires onlyThis.None? || onlyThis == Some(b)
    ensures Disconnect(s, a, playSound, onlyThis).cues
         == (if s.cfg[b].hasConnectSound then [ConnectSound(b)] else [])
            + (if playSound && s.cfg[a].hasConnectSound then [ConnectSound(a)] else [])
  {
    DisconnectPairSteps(s, a, b, playSound, onlyThis);
  }

  /** Clearing both sides of a symmetric pair keeps the store symmetric. */
  lemma ClearPairKeepsSymmetry(s: Store, r: Store, a: Id, b: Id)
    requires Symmetric(s) && a < |s.link| && b < |s.link| && s.link[a] == Some(b)
    requires Valid(r) && r.link == s.link[a := None][b := None]
    ensures Symmetric(r)
  {
    forall x, y | 0 <= x < |r.link| && 0 <= y < |r.link| && r.link[x] == Some(y)
      ensures r.link[y] == Some(x)
    {
      assert x != a && x != b && r.link[x] == s.link[x];
      assert s.link[y] == Some(x);
      assert y != a && y != b && r.link[y] == s.link[y];
    }
  }

  lemma DisconnectPreservesSymmetry(s: Store, a: Id, playSound: bool, onlyThis: Option<Id>)
    requires a < |s.link| && Symmetric(s)
    ensures Symmetric(Disconnect(s, a, playSound, onlyThis).store)
    ensures s.link[a].Some? && s.link[a] != Some(a) && (onlyThis.None? || onlyThis == s.link[a])
            ==> Disconnect(s, a, playSound, onlyThis).calls == 3
  {
    if s.link[a].None? || (onlyThis.Some? && onlyThis != s.link[a]) {
    } else if s.link[a] == Some(a) {
      var s2 := Release(s, a);
      assert Disconnect(s2, a, true, None) == Unlink(s2, [], 1);
      ClearPairKeepsSymmetry(s, Disconnect(s, a, playSound, onlyThis).store, a, a);
    } else {
      var b := s.link[a].value;
      DisconnectPair(s, a, b, playSound, onlyThis);
      ClearPairKeepsSymmetry(s, Disconnect(s, a, playSound, onlyThis).store, a, b);
    }
  }

  /** `OnDisable` of one side of a pair is silent for that side, but the
      partner still plays its connect sound. */
  lemma OnDisablePartnerStillSounds(s: Store, a: Id, b: Id)
    requires Valid(s) && a < |s.link| && a != b && s.link[a] == Some(b)
    requires b < |s.link| && s.link[b] == Some(a)
    ensures OnDisable(s, a).cues == if s.cfg[b].hasConnectSound then [ConnectSound(b)] else []
  {
    DisconnectPairCues(s, a, b, false, None);
  }

  // ---------------------------------------------------------------------
  // Connect

  /** Connecting two free connectors: both record each other, the initiator
      owns the joint, the connect sound plays when asked for, and the
      mismatch loop starts exactly when the colours differ and sparks are
      assigned. */
  lemma ConnectFree(s: Store, a: Id, b: Id, playSound: bool)
    requires Symmetric(s) && a < |s.link| && b < |s.link| && a != b
    requires !IsConnected(s, a) && !IsConnected(s, b)
    ensures var r := Connect(s, a, Some(b), playSound);
      var mismatch := s.cfg[a].hasSparks && s.cfg[a].color != s.cfg[b].color && !s.sparking[a];
      && r.store.link == s.link[a := Some(b)][b := Some(a)]
      && r.store.joint == s.joint[a := Some(b)]
      && r.store.wasKinematic == s.wasKinematic[a := s.kinematic[b]][b := s.kinematic[a]]
      && r.store.kinematic == s.kinematic[b := s.cfg[a].makeKinematic || s.kinematic[b]]
      && r.store.sparking == s.sparking[a := s.sparking[a] || mismatch]
      && r.cues == ConnectCue(s, a, playSound) + (if mismatch then SparkCues(s, a) else [])
      && Symmetric(r.store)
  {
    var s6 := Attach(s, a, b);
    assert s6.link == s.link[a := Some(b)][b := Some(a)];
  }

  lemma ConnectPreservesSymmetry(s: Store, a: Id, b: Id, playSound: bool)
    requires Symmetric(s) && a < |s.link| && b < |s.link| && CanConnect(s, a, b)
    ensures Symmetric(Connect(s, a, Some(b), playSound).store)
  {
    ConnectFree(s, a, b, playSound);
  }

  /** `Connect` from a connected connector is a full `Disconnect` (sound
      on) followed by a `Connect` from the freed connector. */
  lemma ConnectAfterDisconnect(s: Store, a: Id, b: Id, playSound: bool)
    requires Valid(s) && a < |s.link| && b < |s.link| && IsConnected(s, a)
    ensures var d := Disconnect(s, a, true, None);
      && d.store.link[a].None?
      && var c := Connect(d.store, a, Some(b), playSound);
      && Connect(s, a, Some(b), playSound).store == c.store
      && Connect(s, a, Some(b), playSound).cues == d.cues + c.cues
  {
    DisconnectClearsSelf(s, a, true, None);
    var d := Disconnect(s, a, true, None);
    var s6 := Attach(d.store, a, b);
    var startSparks := !s6.sparking[a] && s.cfg[a].hasSparks && !IsConnectedRight(s6, a);
    var sparks := if startSparks then SparkCues(s, a) else [];
    var rest := ConnectCue(s, a, playSound) + sparks;
    var fin := Hide(s6.(sparking := s6.sparking[a := s6.sparking[a] || startSparks]), a);
    assert Connect(d.store, a, Some(b), playSound) == Step(fin, [] + rest);
    assert [] + rest == rest;
    assert Connect(s, a, Some(b), playSound) == Step(fin, d.cues + rest);
  }

  /** A connected connector plugged into a free one first drops its old
      partner `c`, whoever that is, with the sound on for both: the old
      partner ends free and the store stays symmetric. */
  lemma ConnectReplacesPartner(s: Store, a: Id, b: Id, c: Id, playSound: bool)
    requires Symmetric(s) && a < |s.link| && b < |s.link| && s.link[a] == Some(c)
    requires c != a && b != a && !IsConnected(s, b)
    ensures c < |s.link|
    ensures var r := Connect(s, a, Some(b), playSound);
      && r.store.link == s.link[c := None][a := Some(b)][b := Some(a)]
      && ConnectCue(s, c, true) + ConnectCue(s, a, true) <= r.cues
      && Symmetric(r.store)
  {
    ConnectAfterDisconnect(s, a, b, playSound);
    DisconnectPair(s, a, c, true, None);
    DisconnectPairCues(s, a, c, true, None);
    DisconnectPreservesSymmetry(s, a, true, None);
    var d := Disconnect(s, a, true, None);
    ConnectFree(d.store, a, b, playSound);
    ReplaceColumns(s.link, d.store.link, Connect(d.store, a, Some(b), playSound).store.link, a, b, c);
  }

  /** Plugging a free connector `c` into `a`, which is linked to `b`, does
      not disconnect `b`: `Connect` only disconnects its own side, so `b`
      keeps pointing at `a` while `a` points at `c`. */
  lemma StealLeavesDangling(s: Store, c: Id, a: Id, b: Id, playSound: bool)
    requires Symmetric(s) && c < |s.link| && a < |s.link| && s.link[a] == Some(b)
    requires a != b && c != a && c != b && !IsConnected(s, c)
    ensures b < |s.link|
    ensures var r := Connect(s, c, Some(a), playSound).store;
      r.link[c] == Some(a) && r.link[a] == Some(c) && r.link[b] == Some(a) && !Symmetric(r)
  {
  }

  lemma ReplaceColumns(l: seq<Option<Id>>, d: seq<Option<Id>>, r: seq<Option<Id>>, a: Id, b: Id, c: Id)
    requires a < |l| && b < |l| && c < |l| && a != b && a != c
    requires l[b].None?
    requires d == l[a := None][c := None]
    requires r == d[a := Some(b)][b := Some(a)]
    ensures r == l[c := None][a := Some(b)][b := Some(a)]
  {
  }

  lemma ConnectKeepsHideConsistent(s: Store, a: Id, second: Option<Id>, playSound: bool)
    requires Valid(s) && a < |s.link| && HideConsistent(s)
    requires second.Some? ==> second.value < |s.link|
    ensures HideConsistent(Connect(s, a, second, playSound).store)
  {
    if second.Some? {
      var d := if IsConnected(s, a) then Disconnect(s, a, true, None) else Unlink(s, [], 1);
      if IsConnected(s, a) {
        DisconnectKeepsHideConsistent(s, a, true, None);
      }
      AttachKeepsHideElsewhere(d.store, a, second.value);
      var s6 := Attach(d.store, a, second.value);
      var startSparks := !s6.sparking[a] && s.cfg[a].hasSparks && !IsConnectedRight(s6, a);
      var fin := Hide(s6.(sparking := s6.sparking[a := s6.sparking[a] || startSparks]), a);
      assert Connect(s, a, second, playSound).store == fin;
      forall x | 0 <= x < |fin.link|
        ensures HideOk(fin.cfg[x], fin.collider[x], fin.highlight[x], fin.link[x].Some?)
      {
        if x != a {
          assert fin.collider[x] == s6.collider[x] && fin.highlight[x] == s6.highlight[x];
        }
      }
    }
  }

  lemma AttachKeepsHideElsewhere(s: Store, a: Id, o: Id)
    requires Valid(s) && a < |s.link| && o < |s.link| && HideConsistent(s)
    ensures var r := Attach(s, a, o);
      forall x | 0 <= x < |r.link| && x != a :: HideOk(r.cfg[x], r.collider[x], r.highlight[x], r.link[x].Some?)
  {
  }

  // ---------------------------------------------------------------------
  // Start

  /** `Start` re-makes an authored link without a connect sound; at most the
      mismatch loop's first round is heard. */
  lemma StartIsSilent(s: Store, a: Id)
    requires Valid(s) && a < |s.link|
    ensures forall i | 0 <= i < |Start(s, a).cues| :: !Start(s, a).cues[i].ConnectSound?
  {
  }

  /** `Start` of either side of an authored symmetric link keeps it. */
  lemma StartKeepsAuthoredLink(s: Store, a: Id, b: Id)
    requires Symmetric(s) && a < |s.link| && a != b && s.link[a] == Some(b)
    ensures b < |s.link|
    ensures var r := Start(s, a).store;
      r.link == s.link && r.joint[a] == Some(b) && Symmetric(r)
  {
    var s0 := s.(link := s.link[a := None]);
    var s6 := Attach(s0, a, b);
    assert s6.link == s.link;
  }
}

=== FILE: scripts_liftable.dfy ===
/** The holder-less `Liftable` (Scripts/Liftable.cs): the same layer
    save/restore and physics flags as the HInteractions copy, with no
    object holder recorded. */
module ScriptsLiftable {
  import opened Base
  import opened Layers
  import Liftable

  datatype Lift = Lift(
    isLift: bool,
    gravity: bool,
    interp: Liftable.Interpolation,
    cols: seq<Id>,
    saved: seq<Saved>)         // defaultLayers

  ghost predicate Valid(l: Lift, layers: seq<int>) {
    InRange(l.cols, layers) && SavedInRange(l.saved, layers)
  }

  datatype Held = Held(lift: Lift, layers: seq<int>)

  function PickUp(l: Lift, layers: seq<int>, layer: int): (r: Held)
    requires Valid(l, layers)
    ensures Valid(r.lift, r.layers) && |r.layers| == |layers| && r.lift.cols == l.cols
    ensures l.isLift ==> r == Held(l, layers)
    ensures !l.isLift ==> && r.lift.isLift && !r.lift.gravity && r.lift.interp == Liftable.Interpolate
                          && RecordedFrom(r.lift.saved, layers)
  {
    if l.isLift then Held(l, layers)
    else
      var saved := Record(layers, l.cols);
      Held(Lift(true, false, Liftable.Interpolate, l.cols, saved), SetAll(layers, saved, layer))
  }

  function Drop(l: Lift, layers: seq<int>): (r: Held)
    requires Valid(l, layers)
    ensures Valid(r.lift, r.layers) && |r.layers| == |layers| && r.lift.cols == l.cols && !r.lift.isLift
    ensures !l.isLift ==> r == Held(l, layers)
    ensures l.isLift ==> r.lift.gravity && r.lift.interp == Liftable.NoInterpolation && r.lift.saved == l.saved
  {
    if !l.isLift then Held(l, layers)
    else Held(l.(isLift := false, gravity := true, interp := Liftable.NoInterpolation), RestoreAll(layers, l.saved))
  }

  /** Picking up and dropping again puts every layer back and leaves the
      object free and falling. */
  lemma PickUpDropRoundTrip(l: Lift, layers: seq<int>, layer: int)
    requires Valid(l, layers) && !l.isLift
    ensures var h := PickUp(l, layers, layer); var d := Drop(h.lift, h.layers);
      d.layers == layers && !d.lift.isLift && d.lift.gravity && d.lift.interp == Liftable.NoInterpolation
  {
    LayerRoundTrip(layers, l.cols, layer);
  }

  lemma PickUpDropIdempotent(l: Lift, layers: seq<int>, layer: int, layer2: int)
    requires Valid(l, layers)
    ensures var h := PickUp(l, layers, layer); PickUp(h.lift, h.layers, layer2) == h
    ensures var d := Drop(l, layers); Drop(d.lift, d.layers) == d
  {
  }
}
